=== FILE: README.md ===
# wood_STL core in Dafny

This project models the core of `wood_STL`, a small C++ re-implementation of
standard library containers and algorithms, and proves properties of the
model. It covers these parts:

- **`vector`**: element and capacity bookkeeping.
- **`forward_list`**: a singly linked list with a dummy head and a size
  counter.
- **The generic algorithms**: find, count, equal/mismatch, remove,
  adjacent_find/unique, and min/max.
- **The elementary sorts**.
- **`push_heap`**.
- **`reverse_iterator` arithmetic**.
- **The `queue` adapter**.

How the C++ constructs map to Dafny:

- **Containers** are immutable values: a sequence of elements plus whatever
  counter the container keeps.
- **Ranges** are sequences, and **iterators** are indices into them.
- **Routines that rearrange a range in place** are methods. Each takes the
  sequence and returns the rearranged one, plus the new end where the C++
  routine returns one.
- **Exceptions** (`std::out_of_range`, `forward_list_exception`,
  `queue_exception`) are the `Err` case of a `Result`.
- **Comparators and predicates** are function values. Where the library
  needs a comparator to be a strict weak order, the contracts require it as
  `Orders.StrictWeakOrder`.

Modules, one per header, plus two shared ones:

| module | file | models |
|---|---|---|
| `Results` | results.dfy | `Result` and `Option` |
| `Orders` | orders.dfy | strict weak/total orders, `Sorted`, `Swap` |
| `Vector` | vector.dfy | vector.hpp |
| `ForwardList` | forward_list.dfy | forward_list.hpp |
| `Algorithm` | algorithm.dfy | algorithm.hpp |
| `Sort` | sort.dfy | sort.hpp |
| `Heap` | heap.dfy | heap.hpp |
| `ReverseIterator` | reverse_iterator.dfy | the `reverse_iterator` of iterator.hpp |
| `Queue` | queue.dfy | queue.hpp |

Some functions are independent reference definitions that the operations
are proved against:

- `Algorithm.Without`: the order-preserving filter behind `remove`.
- `Algorithm.UniqueOf`: what `unique` keeps, comparing each element with
  the last one kept.
- `Algorithm.RunHeads`: the first element of every run of related
  neighbours, comparing each element with its neighbour in the input.
- `Algorithm.IsSubsequence`: one sequence is another with some positions
  dropped.
- `ReverseIterator.Reversed`: the range read back to front.
- `Queue.Drain`: the sequence of values successive pops yield.
- `Orders.Sorted` together with multiset equality: what a sort must produce.
- `Heap.IsHeap`: the heap property.
- `Heap.OnPath` and `Heap.StopAt`: the ancestor path sift-up may travel,
  and where on it the pushed element comes to rest.
- `Queue.LexWitness`: a position that shows one sequence lexicographically
  precedes another.
- `Vector.Run`: the result of a sequence of mutating calls.

## Model

| member | source | states |
|---|---|---|
| Vector.Empty | vector.hpp:44-51 | a default-constructed vector has null pointers: no elements and capacity 0 |
| Vector.IsEmpty | vector.hpp:272-274 | `empty()` holds exactly when the size is 0 |
| Vector.Size | vector.hpp:202-204 | the size is zero exactly when there are no elements, and on a valid vector it never exceeds the capacity |
| Vector.Capacity | vector.hpp:268-270 | on a valid vector the capacity is at least the number of live elements |
| Vector.CreateFill | vector.hpp:318-331 | filling fresh storage gives exactly n copies of the value, with capacity exactly n |
| Vector.CreateRange | vector.hpp:340-357 | copying a range gives its elements in order with capacity equal to size; an empty range returns early and leaves the vector as it was |
| Vector.ClearElements | vector.hpp:360-366 | releasing leaves no elements and capacity 0; on a null vector nothing changes |
| Vector.Clear | vector.hpp:104-111 | `clear` destroys every element but keeps the capacity |
| Vector.FromCount | vector.hpp:53-59 | `vector(n, value)` has n elements each equal to value, capacity n |
| Vector.FromRange | vector.hpp:61-68 | `vector(first, last)` and the initializer-list constructor read back the range element by element |
| Vector.Copy | vector.hpp:70-80 | the copy constructor and copy assignment produce the same elements in storage sized exactly to them |
| Vector.Assign | vector.hpp:118-132 | `assign` from a range or initializer list reads back that range, with capacity equal to its length |
| Vector.AssignFill | vector.hpp:140-143 | `assign(n, value)` reads back n copies of value |
| Vector.At | vector.hpp:289-303 | `operator[]` succeeds exactly for indices below the size and otherwise raises out_of_range |
| Vector.PushBack | vector.hpp:229-252 | `push_back`/`emplace_back` grow the size by one, put the value at the old size, keep every earlier element, and keep the capacity when the buffer was not full |
| Vector.Resize | vector.hpp:212-222 | `resize(n, value)` gives size n, keeps the first min(n, size) elements, and fills new positions with value |
| Vector.ShrinkToFit | vector.hpp:259-262 | `shrink_to_fit` keeps every element and makes the capacity equal to the size |
| Vector.ClearIdempotent | vector.hpp:104-111 | clearing twice is clearing once, and clearing an empty vector changes nothing |
| Vector.RunKeepsValid | vector.hpp:104-143 | after any sequence of `push_back`, `resize`, `assign` (range or count), `clear` and `shrink_to_fit` calls the vector is still valid: its size never exceeds its capacity |
| Vector.AssignRoundTrip | vector.hpp:118-122 | reading back an assigned range reproduces it, and the first index past it is out of range |
| Vector.PushAllAppends | vector.hpp:229-252 | pushing xs one at a time appends xs in order, whatever capacities the regrowths choose |
| Vector.TestScenario | vector_test.cpp:16-50 | the test program's sequence holds on one vector threaded through it: five pushes and copy assignment give [5, 4, 3, 2, 1]; then clear and assign [1, 2, 3], clear and assign [1, 2, 3, 4], clear and assign ten zeros, each reading back exactly |
| ForwardList.Empty | forward_list.hpp:171 | a default-constructed list has no nodes and a zero counter |
| ForwardList.Size | forward_list.hpp:233-235 | `size()` reads the counter, which on a valid list is the number of nodes |
| ForwardList.Next | forward_list.hpp:97-100 | `++p` moves to the node that follows p (the first node from `before_begin`), and reaches `end` exactly from the last node |
| ForwardList.CopyOf | forward_list.hpp:184 | the copy constructor yields a valid list with exactly the other list's nodes |
| ForwardList.MoveConstruct | forward_list.hpp:186-188 | the move constructor takes over the other list's nodes and leaves the other list empty |
| ForwardList.CopyAssign | forward_list.hpp:200-204 | copy assignment leaves exactly the other list's nodes |
| ForwardList.MoveAssign | forward_list.hpp:206-212 | move assignment from itself changes nothing; from another list it takes that list's nodes and leaves it empty |
| ForwardList.IsEmpty | forward_list.hpp:233-239 | `empty()` reads the counter, and it agrees with the node chain being empty |
| ForwardList.EmplaceAfter | forward_list.hpp:400-410 | throws at `end` and changes nothing; otherwise the new node sits right after the position, the nodes before and after are unchanged, the counter grows by one, and the result points at the new node |
| ForwardList.InsertAfter | forward_list.hpp:357-371 | `insert_after(pos, v)` throws at `end`; otherwise it splices v in right after pos and returns the new node |
| ForwardList.InsertAfterRange | forward_list.hpp:389-394 | inserting a range splices it in order after pos and returns its last node; an empty range returns pos unchanged, and a non-empty one throws at `end` |
| ForwardList.InsertAfterCount | forward_list.hpp:377-382 | inserting n copies splices n copies after pos and returns the last one; n = 0 returns pos unchanged |
| ForwardList.EraseAfter | forward_list.hpp:325-338 | throws OffTheEnd at `end` and NoElementAfter at the last node; otherwise removes exactly the successor, decrements the counter and returns the node that now follows pos |
| ForwardList.EraseAfterRange | forward_list.hpp:344-355 | the evidently intended range erase removes exactly the nodes strictly between pos and last and returns last |
| ForwardList.EraseAfterRangeAsWritten | forward_list.hpp:344-355 | the range erase as written keeps the prefix up to pos and never lengthens the list |
| ForwardList.EraseLoopAsWritten | forward_list.hpp:349-353 | the written loop keeps every node up to and including the cursor |
| ForwardList.EraseAfterRangeSkipsNodes | forward_list.hpp:344-355 | erasing between `before_begin` and the fourth of [1, 2, 3, 4] keeps 2 and 4 as written, where [4] was meant |
| ForwardList.PushFront | forward_list.hpp:219-231 | `push_front`/`emplace_front` put the value before every existing node and grow the counter |
| ForwardList.Front | forward_list.hpp:248-253 | `front()` throws on an empty list and otherwise yields the first node |
| ForwardList.PopFront | forward_list.hpp:241-246 | `pop_front()` throws on an empty list and otherwise removes exactly the first node |
| ForwardList.Clear | forward_list.hpp:316-319 | `clear()` leaves no nodes and a zero counter |
| ForwardList.Assign | forward_list.hpp:295-308 | `assign` from a range or initializer list leaves exactly that range, whatever the list held before |
| ForwardList.AssignCount | forward_list.hpp:300-303 | `assign(n, v)` leaves n nodes all equal to v |
| ForwardList.Swap | forward_list.hpp:310-314 | `swap` exchanges both the node chains and the counters |
| ForwardList.Resize | forward_list.hpp:416-421 | shrinking with the intended range erase keeps exactly the first k nodes; k equal to the size changes nothing |
| ForwardList.ResizeAsWritten | forward_list.hpp:416-421 | shrinking as written keeps the first k nodes but can keep later ones too |
| ForwardList.ResizeKeepsWrongNodes | forward_list.hpp:416-421 | shrinking [1, 2, 3] to one node throws after erasing 2, and shrinking [1, 2, 3, 4] keeps [1, 3] |
| ForwardList.InsertThenErase | forward_list.hpp:325-371 | inserting after pos and then erasing after pos restores the list and returns pos's original successor |
| ForwardList.PushPopFront | forward_list.hpp:219-253 | after `push_front(v)`, `front()` is v and `pop_front()` restores the list |
| Algorithm.DistanceByIncrement | algorithm.hpp:27-40 | counting increments from first to last gives the random-access difference last - first |
| Algorithm.DistanceRandomAccess | algorithm.hpp:27-30 | advancing first by the result reaches last |
| Algorithm.Copy | algorithm.hpp:42-48 | the source lands at the destination offset in order, the result is the offset plus the length, and nothing else in the destination changes |
| Algorithm.FindIf | algorithm.hpp:60-68 | the result is the first position whose element satisfies pred, or the end if there is none |
| Algorithm.Find | algorithm.hpp:50-58 | the result is the first position holding the value, and it is the end exactly when the value is absent |
| Algorithm.BreakLoop | algorithm.hpp:72-76 | a `for` loop with a test and a breaking body stops at the first position where the test fails or the body breaks, or at the end, and passes every earlier position |
| Algorithm.BreakLoopNeverAdvances | algorithm.hpp:72-76 | when every element the test admits makes the body break, the loop returns its starting position |
| Algorithm.FindIfNotAsWritten | algorithm.hpp:70-78 | the written loop, run with test and break both `!pred`, returns the start of the range on every input |
| Algorithm.FindIfNot | algorithm.hpp:70-78 | as intended: the first position whose element fails pred, or the end |
| Algorithm.FindIfNotReportsMatch | algorithm.hpp:70-78 | on [1] with pred x > 0, the written code reports position 0, where the end was meant |
| Algorithm.CountIf | algorithm.hpp:184-192 | the count is zero exactly when no element satisfies pred, and it plus the length of the `remove_if` filter is the length of the range |
| Algorithm.Count | algorithm.hpp:172-181 | `count` is the multiplicity of the value in the range |
| Algorithm.CountIsCountIf | algorithm.hpp:172-192 | `count(v)` equals `count_if` with the predicate `== v` |
| Algorithm.MismatchBy | algorithm.hpp:262-270 | both iterators advance together to the first position where pred fails, or to the end of the first range |
| Algorithm.Mismatch | algorithm.hpp:248-258 | the ranges agree before the returned position and differ at it |
| Algorithm.EqualBy | algorithm.hpp:150-159 | `equal` with pred holds exactly when pred holds position by position |
| Algorithm.Equal | algorithm.hpp:141-148 | `equal` holds exactly when the first range is a prefix of the second |
| Algorithm.EqualIffNoMismatch | algorithm.hpp:141-270 | `equal` holds exactly when `mismatch` runs to the end of the first range |
| Algorithm.RemoveLoop | algorithm.hpp:301-311 | from any state where the prefix before the new end holds the filter of what was read and the rest is unread, the loop leaves exactly the filter of the whole input before the new end |
| Algorithm.RemoveIf | algorithm.hpp:295-312 | the kept prefix is the input without the matching elements, in order; with no match the range is untouched and the end is returned |
| Algorithm.Remove | algorithm.hpp:276-289 | the kept prefix is the input without the value, in order, and none of its elements equals it; with the value absent nothing changes |
| Algorithm.RemoveCopyIf | algorithm.hpp:333-345 | exactly the filtered sequence is written from the output offset; the returned end marks its end and nothing else changes |
| Algorithm.RemoveCopy | algorithm.hpp:318-327 | exactly the input without the value is written to the output, and the end of it is returned |
| Algorithm.AdjacentFind | algorithm.hpp:351-364 | the result is the first i with pred(a[i], a[i+1]); it is the end exactly when no such pair exists |
| Algorithm.UniqueOfHasNoAdjacent | algorithm.hpp:379-392 | no two neighbours of the result of `unique` are related by pred |
| Algorithm.UniqueOfNoAdjacent | algorithm.hpp:379-392 | a range without related neighbours is its own `unique` |
| Algorithm.UniqueOfIsRunHeads | algorithm.hpp:379-392 | when pred is an equivalence, keeping an element unless it is related to the last kept one collapses every run of related neighbours to its first element |
| Algorithm.UniqueOfIsSubsequence | algorithm.hpp:379-392 | for any pred, `unique` only drops elements: its result is a subsequence of the input |
| Algorithm.UniqueOfIdempotent | algorithm.hpp:379-392 | applying `unique` twice is applying it once |
| Algorithm.UniqueLoop | algorithm.hpp:385-391 | from any state where the kept prefix is the reference `unique` of what was read and the rest is unread, the loop leaves exactly the reference `unique` of the whole input in front of the returned end |
| Algorithm.Unique | algorithm.hpp:379-392 | the kept prefix is the reference `unique` of the input; for an equivalence pred it is the first element of every run of related neighbours; a range without related neighbours is left as it is, with the old end |
| Algorithm.UniqueCopy | algorithm.hpp:407-422 | exactly the reference `unique` of the input is written from the output offset, which for an equivalence pred is the first element of every run of related neighbours, and nothing else changes |
| Algorithm.MinElement | algorithm.hpp:80-93 | as intended, the result is the end exactly for an empty range; otherwise, under a strict weak order, it holds a least element and every earlier element is strictly greater |
| Algorithm.MinElementAsWritten | algorithm.hpp:80-93 | the written loop never returns the second position |
| Algorithm.MinElementAsWrittenIgnoresSecond | algorithm.hpp:85-91 | the written loop finds a least element among all positions except the second |
| Algorithm.MinElementMissesSecond | algorithm.hpp:80-93 | on [2, 1] the written code returns the position of 2 |
| Algorithm.MaxElement | algorithm.hpp:100-112 | the result is the end exactly for an empty range; otherwise, under a strict weak order, it holds a greatest element and every earlier element is strictly less |
| Algorithm.MinmaxElement | algorithm.hpp:119-134 | an empty range yields both ends; otherwise the single loop finds the positions the intended `min_element` and `max_element` find |
| Sort.SelectMin | sort.hpp:50-56 | the inner scan finds a position in the rest of the range holding a least element |
| Sort.SelectionSort | sort.hpp:44-61 | the result is sorted under comp, is a permutation of the input, and ranges shorter than 2 are unchanged |
| Sort.BubblePass | sort.hpp:99-108 | one pass keeps the multiset, leaves the suffix alone, and carries a greatest element of the pass to its last position |
| Sort.PassExtendsSuffix | sort.hpp:81-87 | after pass i, the last i + 1 positions are sorted and bound everything before them |
| Sort.BubbleSortArray | sort.hpp:76-88 | the array version sorts, permutes, and leaves arrays of size below 2 unchanged |
| Sort.BubbleSort | sort.hpp:94-110 | the iterator version sorts under comp and permutes; an empty range is unchanged |
| Sort.ShiftStep | sort.hpp:132-134 | shifting an element up keeps the prefix sorted apart from the hole, and keeps the multiset once the held value fills the hole |
| Sort.FillStep | sort.hpp:135 | dropping the held value into the hole leaves the first i + 1 positions sorted |
| Sort.InsertionSort | sort.hpp:125-137 | the array version sorts and permutes, and arrays of size below 2 are unchanged |
| Heap.Parent | heap.hpp:25-30 | the parent index is below the child and has it as left or right child; index 0 maps to 0 as C++ truncating division gives |
| Heap.SiftStart | heap.hpp:18-25 | before the loop the hole is at the last position and every edge of the old heap is in order |
| Heap.SiftStep | heap.hpp:27-31 | moving the parent down into the hole keeps the loop state, and amounts to a transposition once the element is dropped in |
| Heap.SiftDone | heap.hpp:27-32 | storing the element where the loop stops gives a heap |
| Heap.StopAt | heap.hpp:27-31 | sift-up of the element stops at the first ancestor that is the root or whose parent is not comp-less than it, and every position passed has a comp-less parent |
| Heap.SiftUp | heap.hpp:22-32 | the loop leaves a heap with the same multiset, the element at `StopAt`, each position passed holding its parent's old value and everything else unchanged |
| Heap.PushHeap | heap.hpp:16-33 | pushing onto a heap gives a heap with the same multiset; only positions on the path from the last position to the root change; the element comes to rest at `StopAt` with each position passed below it holding its parent's old value; ranges shorter than 2, or an element not greater than its parent, are left unchanged |
| Heap.RootIsGreatest | heap.hpp:16-33 | in a heap the root is a greatest element |
| ReverseIterator.MakeReverseIterator | iterator.hpp:234-237 | the result wraps the given iterator |
| ReverseIterator.Base | iterator.hpp:90 | `base()` returns the wrapped iterator, from which `make_reverse_iterator` rebuilds the same reverse iterator |
| ReverseIterator.Deref | iterator.hpp:95-98 | `*rit` is the element just before base, which is the matching element of the reversed range |
| ReverseIterator.PreInc | iterator.hpp:104-107 | prefix `++` moves the base one place towards the front |
| ReverseIterator.PostInc | iterator.hpp:110-114 | postfix `++` advances like prefix `++` and yields the old value |
| ReverseIterator.PreDec | iterator.hpp:117-120 | prefix `--` moves the base one place towards the back |
| ReverseIterator.PostDec | iterator.hpp:123-127 | postfix `--` moves like prefix `--` and yields the old value |
| ReverseIterator.Plus | iterator.hpp:130-132 | `rit + d` has base `base - d` |
| ReverseIterator.PlusLeft | iterator.hpp:192-195 | `d + rit` is `rit + d` |
| ReverseIterator.Minus | iterator.hpp:141-143 | `rit - d` is `rit + (-d)` |
| ReverseIterator.PlusAssign | iterator.hpp:135-138 | `+=` agrees with `+` |
| ReverseIterator.MinusAssign | iterator.hpp:146-149 | `-=` agrees with `-` |
| ReverseIterator.Index | iterator.hpp:151-153 | `rit[d]` is the element at base - 1 - d, which is the element d further along the reversed range |
| ReverseIterator.Eq | iterator.hpp:157-160 | `==` holds exactly for equal reverse iterators |
| ReverseIterator.Ne | iterator.hpp:162-165 | `!=` holds exactly for different reverse iterators |
| ReverseIterator.Lt | iterator.hpp:167-170 | `left < right` holds exactly when `right - left` is positive |
| ReverseIterator.Gt | iterator.hpp:172-175 | `left > right` holds exactly when `right - left` is negative |
| ReverseIterator.Le | iterator.hpp:177-180 | `<=` is `<` or `==` |
| ReverseIterator.Ge | iterator.hpp:182-185 | `>=` is `>` or `==` |
| ReverseIterator.Difference | iterator.hpp:187-190 | `left - right` is the distance d with `right + d == left` |
| ReverseIterator.MakeThenBase | iterator.hpp:234-237 | `make_reverse_iterator(it).base() == it` |
| ReverseIterator.IncDecInverse | iterator.hpp:104-127 | `++` and `--` undo each other |
| ReverseIterator.PlusIsRepeatedInc | iterator.hpp:104-132 | `rit + n` equals n prefix increments |
| ReverseIterator.PlusMinusInverse | iterator.hpp:130-190 | `+ d` then `- d` returns the same iterator, and `(rit + d) - rit == d` |
| ReverseIterator.LtIsStrictTotal | iterator.hpp:157-170 | `<` is irreflexive, transitive and total with `==`, and it reverses the order of the bases |
| ReverseIterator.WalkFrom | iterator.hpp:95-107 | walking with `++` from a reverse iterator down to `rend` reads the matching suffix of the reversed range |
| ReverseIterator.WalkIsReversed | iterator.hpp:95-107 | walking from `rbegin` to `rend` visits the range back to front |
| Queue.FromContainer | queue.hpp:45-47 | the adapter over a container pops its elements front to back |
| Queue.IsEmpty | queue.hpp:51-57 | `empty()` holds exactly when `size()` is 0 |
| Queue.Size | queue.hpp:55-57 | `size()` is zero exactly when the container is empty |
| Queue.SizeIsDrainLength | queue.hpp:55-57 | the size is the number of elements successive pops yield |
| Queue.Front | queue.hpp:59-71 | `front()` raises queue_exception with its message on an empty queue and otherwise yields the oldest element |
| Queue.Back | queue.hpp:73-85 | `back()` raises queue_exception with its message on an empty queue and otherwise yields the newest element |
| Queue.Emplace | queue.hpp:96-99 | `emplace` grows the size by one, makes the value the back, and keeps the front and all earlier elements |
| Queue.Push | queue.hpp:87-94 | both `push` overloads grow the size by one, make the value the back, and keep the front and all earlier elements |
| Queue.Pop | queue.hpp:101-106 | `pop()` raises queue_exception on an empty queue and otherwise removes exactly the oldest element |
| Queue.Swap | queue.hpp:108-111 | `swap` exchanges the two contents |
| Queue.DrainIsItems | queue.hpp:59-106 | popping until empty yields the container's elements front to back |
| Queue.PushPopCommute | queue.hpp:87-106 | on a non-empty queue, pushing and then popping is the same as popping and then pushing |
| Queue.Fifo | queue.hpp:87-106 | values pushed onto an empty queue are popped in the order they were pushed |
| Queue.PushAllAppends | queue.hpp:87-99 | pushing xs appends xs to the back |
| Queue.SwapInvolution | queue.hpp:108-141 | swapping twice restores both queues |
| Queue.Eq | queue.hpp:113-115 | `==` holds exactly when the two queues are equal |
| Queue.Ne | queue.hpp:117-119 | `!=` holds exactly when the two queues differ |
| Queue.LexLessWitness | queue.hpp:121-123 | the container `<` holds exactly when, after some prefix of pairwise equivalent elements, the first queue ends while the second goes on or its next element is less |
| Queue.Lt | queue.hpp:121-123 | `<` holds exactly when a lexicographic witness that the first queue precedes the second exists |
| Queue.Ge | queue.hpp:125-127 | `>=` holds exactly when no witness that the first queue precedes the second exists |
| Queue.Gt | queue.hpp:129-131 | `>` holds exactly when a witness that the second queue precedes the first exists |
| Queue.Le | queue.hpp:133-135 | `<=` holds exactly when no witness that the second queue precedes the first exists |
| Queue.LexLessTotal | queue.hpp:113-123 | under a strict total element order two containers are equal or one is lexicographically less than the other |
| Queue.LexLessIrreflexive | queue.hpp:121-123 | under a strict weak element order no queue is `<` itself |
| Queue.LexLessTransitive | queue.hpp:121-123 | under a strict weak element order queue `<` is transitive |
| Queue.Trichotomy | queue.hpp:113-135 | under a strict total element order exactly one of `<`, `==`, `>` holds, and `<=`, `>=` derived from `<` agree with it |

## Left out

- Memory: allocation, placement construction, the uninitialized fill/copy
  and the catch-and-rethrow rollback of vector.hpp, and the node ownership
  (`unique_ptr`) of forward_list.hpp, are all left out. Their observable
  outcome is what the model states.
- Moved-from values: positions of a range that `remove`, `unique` or the
  sorts move from keep a copy in the model, where C++ leaves a
  valid-but-unspecified value. The contracts speak only of the positions
  the library defines.
- Vector.PushBack: the regrowth routine `check_expand_capacity` has no body
  in vector.hpp. The capacity after a push onto a full buffer is therefore a
  parameter, required to exceed the size. The constants 10 and 2 are
  declared but not applied.
- Vector.Resize: `erase` and `insert`, which `resize` calls, have no body in
  vector.hpp. The model gives the effect their names promise. The capacity
  after a growth past the capacity is a parameter, required to cover the new
  size.
- Vector.Copy: the copy constructor at vector.hpp:72 is missing a comma
  between its two arguments and does not compile. The model gives what it
  evidently means, a copy of the elements. `expand_capacity`, `reserve`,
  `insert`, `erase` and the member `swap` are not modelled: their bodies are
  not in the file.
- The assignment of a `vector` from an initializer list (vector.hpp:96-98)
  calls `assign` but has no `return` statement although it returns a
  reference. `Vector.Assign` models the effect on the vector; the missing
  return value is not modelled.
- ForwardList.Resize: only the shrink path is modelled. The grow path calls
  an `insert` the class does not define. `resize(n)` with a default value
  reaches the same paths.
- The assignment of a `forward_list` from an initializer list
  (forward_list.hpp:214-217) is `assign` followed by `return *this`, so
  `ForwardList.Assign` models it. The `const_iterator` postfix `++` is `++p`
  returning the old position, and is not modelled apart from
  `ForwardList.Next`.
- Algorithm.FindIf: the loop test calls an undefined `predicate`. It is
  modelled as evidently intended, with `pred`, and `remove_if` uses that
  version.
- The default-comparator overloads of `min_element`, `max_element`,
  `adjacent_find`, `selection_sort` and `bubble_sort` are the comparator
  versions instantiated with `std::less` or `std::equal_to`. They are not
  modelled separately. The default `unique` and `unique_copy` call a
  namespace `mystl` that does not exist, and `is_permutation` is not
  modelled.
- The array `selection_sort` (sort.hpp:23-38) uses `min` and `i` outside
  their scope and does not compile. The unfinished template at sort.hpp:139
  has no body. Neither is modelled.
- Algorithm.MinElementAsWritten: a one-element range makes the written loop
  step past the end, which is undefined behaviour. The model excludes that
  input.
- Queue: the default container `wood_STL::list` is unfinished and has no
  `emplace_back`, `pop_front`, `==` or `<`. The container is modelled as a
  sequence with element-wise `==` and lexicographic `<` over an element
  comparator, as a standard sequence container provides. `operator>`
  (queue.hpp:129-131) evaluates `other < *this` with `other` a
  `const queue&`, but `operator<` (queue.hpp:121) is not `const`, so `>`
  does not compile when instantiated. `Queue.Gt` gives what it evidently
  means, the reversed `<`. `operator<=` (queue.hpp:133-135) is
  `!(*this > other)` and inherits that error; `Queue.Le` gives its evident
  meaning, the negation of `Queue.Gt`.
- ReverseIterator: `operator->` is `&*rit` and is not modelled apart from
  `Deref`. The converting constructor copies the base, which the model's
  single integer base already covers. The iterator traits and the
  `Require*Iterator` aliases are compile-time only.
- ReverseIterator.PlusLeft: `difference_type`, `pointer` and `reference`
  (iterator.hpp:72-74) are declared before any access specifier in a
  `class`, so they are private. The free `operator+` (iterator.hpp:192-195)
  names `reverse_iterator<Iterator>::difference_type` in its parameter, so
  deduction fails on access and `d + rit` has no viable overload.
  `PlusLeft` gives the evident meaning, `rit + d`.
- ReverseIterator.Difference: for the same reason the same-type
  `operator-` (iterator.hpp:187-190) is discarded, and `left - right`
  resolves to the mixed-type overload at iterator.hpp:229-232. Both compute
  `right.base() - left.base()`, which `Difference` models.
- list.hpp, binary_tree.hpp, priority_queue.hpp, stack.hpp, Stack.h and
  memory.hpp are not part of this model: they are unfinished or thin
  wrappers. Console output (`print`) is not modelled either.

## Findings

| source | as written | input that shows it | evidently intended | confidence | as-written member | corrected member |
|---|---|---|---|---|---|---|
| forward_list.hpp:349-353 | the loop sets `next_erased = erase_after(next_erased)`, which erases the node after the cursor and so skips every other node | erase between `before_begin` and the fourth node of [1, 2, 3, 4]: the list becomes [2, 4] | erase the successor of `position` until it is `last`, leaving [4] | high (not executed) | ForwardList.EraseAfterRangeAsWritten | ForwardList.EraseAfterRange |
| forward_list.hpp:416-421 | the shrink path of `resize` uses that range erase | `resize(1)` on [1, 2, 3] throws after erasing 2; on [1, 2, 3, 4] it leaves [1, 3] | keep exactly the first k nodes | high (not executed) | ForwardList.ResizeAsWritten | ForwardList.Resize |
| algorithm.hpp:85-87 | an extra `++beg` before `while(++beg != end)` skips the second element | `min_element` on [2, 1] returns the position of 2 | the first least element, position 1 | high (not executed) | Algorithm.MinElementAsWritten | Algorithm.MinElement |
| algorithm.hpp:72-76 | the loop runs only while `!pred(*beg)` holds and its body breaks on that same condition, so it never advances | `find_if_not` on [1] with pred x > 0 returns position 0 | the first element failing pred, else the end (position 1 here) | high (not executed) | Algorithm.FindIfNotAsWritten | Algorithm.FindIfNot |

=== FILE: algorithm.dfy ===
/** The generic algorithms of `wood_STL`. A range [beg, end) is the sequence
    of its elements and an iterator into it is an index; `end` is the
    length of the sequence. Output iterators write into a destination
    sequence starting at an offset. */
module Algorithm {
  import opened Orders

  /** The predicate `x == v` used by the value-taking overloads. */
  function EqualTo<T(==)>(v: T): T -> bool {
    x => x == v
  }

  /** `operator==` as a binary predicate. */
  function Equality<T(==)>(): (T, T) -> bool {
    (x, y) => x == y
  }

  /** The reference filter: s without the elements that satisfy pred, in
      their original order. */
  function Without<T>(s: seq<T>, pred: T -> bool): (r: seq<T>)
    ensures |r| <= |s|
    ensures forall i :: 0 <= i < |r| ==> !pred(r[i])
  {
    if s == [] then []
    else
      var rest := Without(s[..|s| - 1], pred);
      if pred(s[|s| - 1]) then rest else rest + [s[|s| - 1]]
  }

  lemma {:induction false} WithoutConcat<T>(a: seq<T>, b: seq<T>, pred: T -> bool)
    ensures Without(a + b, pred) == Without(a, pred) + Without(b, pred)
    decreases |b|
  {
    if b == [] {
      assert a + b == a;
    } else {
      var b' := b[..|b| - 1];
      WithoutConcat(a, b', pred);
      assert (a + b)[..|a + b| - 1] == a + b';
    }
  }

  /** A range none of whose elements match is left as it is. */
  lemma {:induction false} WithoutNoMatch<T>(s: seq<T>, pred: T -> bool)
    requires forall i :: 0 <= i < |s| ==> !pred(s[i])
    ensures Without(s, pred) == s
    decreases |s|
  {
    if s != [] {
      WithoutNoMatch(s[..|s| - 1], pred);
    }
  }

  /** One more element of input extends the filter by that element or not
      at all. */
  lemma {:induction false} WithoutSnoc<T>(s: seq<T>, x: T, pred: T -> bool)
    ensures pred(x) ==> Without(s + [x], pred) == Without(s, pred)
    ensures !pred(x) ==> Without(s + [x], pred) == Without(s, pred) + [x]
  {
    assert (s + [x])[..|s + [x]| - 1] == s;
  }

  // ---------------------------------------------------------------- distance

  /** `distance` for random-access iterators. */
  function DistanceRandomAccess(first: int, last: int): (d: int)
    ensures first + d == last
  {
    last - first
  }

  /** `distance` for input iterators: count increments until `last`. */
  method DistanceByIncrement(first: int, last: int) returns (n: int)
    requires first <= last
    ensures n == DistanceRandomAccess(first, last)
    ensures first + n == last
  {
    var it := first;
    n := 0;
    while it != last
      invariant first <= it <= last
      invariant n == it - first
      decreases last - it
    {
      it := it + 1;
      n := n + 1;
    }
  }

  // -------------------------------------------------------------------- copy

  /** `copy(beg, end, desBeg)`: the destination must have room for the whole
      source. Returns the updated destination and `desBeg + |src|`. */
  method Copy<T>(src: seq<T>, dst: seq<T>, d: nat) returns (out: seq<T>, e: nat)
    requires d + |src| <= |dst|
    ensures |out| == |dst| && e == d + |src|
    ensures out[d..e] == src
    ensures out[..d] == dst[..d] && out[e..] == dst[e..]
  {
    out := dst;
    var i := 0;
    while i < |src|
      invariant 0 <= i <= |src|
      invariant |out| == |dst|
      invariant forall k :: 0 <= k < i ==> out[d + k] == src[k]
      invariant forall k :: 0 <= k < |dst| && !(d <= k < d + i) ==> out[k] == dst[k]
    {
      out := out[d + i := src[i]];
      i := i + 1;
    }
    e := d + i;
    assert out[d..e] == src;
  }

  // ---------------------------------------------------------------- find

  /** The loop of `find_if` from position i: the first index at or after i
      whose element satisfies pred, or the end. */
  function FindIfFrom<T>(s: seq<T>, pred: T -> bool, i: nat): (r: nat)
    requires i <= |s|
    ensures i <= r <= |s|
    ensures r < |s| ==> pred(s[r])
    ensures forall j :: i <= j < r ==> !pred(s[j])
    decreases |s| - i
  {
    if i == |s| then i
    else if pred(s[i]) then i
    else FindIfFrom(s, pred, i + 1)
  }

  /** `find_if` with the loop test evidently meant (`pred` where the code
      names an undefined `predicate`). */
  function FindIf<T>(s: seq<T>, pred: T -> bool): (r: nat)
    ensures r <= |s|
    ensures r < |s| ==> pred(s[r])
    ensures forall j :: 0 <= j < r ==> !pred(s[j])
  {
    FindIfFrom(s, pred, 0)
  }

  /** `find`: the first index holding v, or the end. */
  function Find<T(==)>(s: seq<T>, v: T): (r: nat)
    ensures r <= |s|
    ensures r < |s| ==> s[r] == v
    ensures forall j :: 0 <= j < r ==> s[j] != v
    ensures r == |s| <==> v !in s
  {
    FindIf(s, EqualTo(v))
  }

  /** A loop `for(; i != end && test(*i); ++i) { if (brk(*i)) break; }`
      run from position i: it stops at the first position where the test
      fails or the body breaks, or at the end. */
  function BreakLoop<T>(s: seq<T>, test: T -> bool, brk: T -> bool, i: nat): (r: nat)
    requires i <= |s|
    ensures i <= r <= |s|
    ensures forall j :: i <= j < r ==> test(s[j]) && !brk(s[j])
    ensures r < |s| ==> !test(s[r]) || brk(s[r])
    decreases |s| - i
  {
    if i < |s| && test(s[i]) then
      (if brk(s[i]) then i else BreakLoop(s, test, brk, i + 1))
    else i
  }

  /** When every element the test admits makes the body break, the loop
      never reaches its increment. */
  lemma BreakLoopNeverAdvances<T>(s: seq<T>, test: T -> bool, brk: T -> bool, i: nat)
    requires i <= |s|
    requires forall x :: test(x) ==> brk(x)
    ensures BreakLoop(s, test, brk, i) == i
  {
  }

  /** `find_if_not` as written: the loop test admits only an element that
      fails pred, and the body breaks on exactly that condition. */
  function FindIfNotAsWritten<T>(s: seq<T>, pred: T -> bool): (r: nat)
    ensures r == 0
  {
    BreakLoopNeverAdvances(s, x => !pred(x), x => !pred(x), 0);
    BreakLoop(s, x => !pred(x), x => !pred(x), 0)
  }

  /** `find_if_not` as evidently intended: the first index whose element
      does not satisfy pred, or the end. */
  function FindIfNot<T>(s: seq<T>, pred: T -> bool): (r: nat)
    ensures r <= |s|
    ensures r < |s| ==> !pred(s[r])
    ensures forall j :: 0 <= j < r ==> pred(s[j])
  {
    FindIf(s, x => !pred(x))
  }

  /** On a one-element range whose element satisfies the predicate the
      written loop reports that element instead of the end. */
  lemma FindIfNotReportsMatch()
    ensures FindIfNotAsWritten([1], (x: int) => x > 0) == 0
    ensures FindIfNot([1], (x: int) => x > 0) == 1
  {
  }

  // ---------------------------------------------------------------- count

  /** `count_if`: every element is either counted or kept by the filter of
      `remove_if`. */
  function CountIf<T>(s: seq<T>, pred: T -> bool): (r: nat)
    ensures r <= |s|
    ensures r == 0 <==> forall i :: 0 <= i < |s| ==> !pred(s[i])
    ensures r + |Without(s, pred)| == |s|
  {
    if s == [] then 0
    else
      WithoutConcat([s[0]], s[1..], pred);
      assert [s[0]] + s[1..] == s;
      assert Without([s[0]], pred) == if pred(s[0]) then [] else [s[0]] by {
        assert [s[0]][..0] == [];
      }
      (if pred(s[0]) then 1 else 0) + CountIf(s[1..], pred)
  }

  /** `count`: the multiplicity of v in the range. */
  function Count<T(==)>(s: seq<T>, v: T): (r: nat)
    ensures r == multiset(s)[v]
  {
    CountOf(s, v)
    // CountIf(s, EqualTo(v)) computes the same number; see CountIsCountIf
  }

  function CountOf<T(==)>(s: seq<T>, v: T): (r: nat)
    ensures r == multiset(s)[v]
  {
    if s == [] then 0
    else
      assert s == [s[0]] + s[1..];
      (if s[0] == v then 1 else 0) + CountOf(s[1..], v)
  }

  lemma {:induction false} CountIsCountIf<T>(s: seq<T>, v: T)
    ensures Count(s, v) == CountIf(s, EqualTo(v))
    decreases |s|
  {
    if s != [] {
      CountIsCountIf(s[1..], v);
    }
  }

  // ---------------------------------------------------------- equal/mismatch

  /** The loop of `mismatch` from position i: both iterators advance
      together while pred holds. */
  function MismatchFrom<T, U>(a: seq<T>, b: seq<U>, pred: (T, U) -> bool, i: nat): (r: nat)
    requires i <= |a| <= |b|
    ensures i <= r <= |a|
    ensures forall j :: i <= j < r ==> pred(a[j], b[j])
    ensures r < |a| ==> !pred(a[r], b[r])
    decreases |a| - i
  {
    if i == |a| || !pred(a[i], b[i]) then i
    else MismatchFrom(a, b, pred, i + 1)
  }

  /** `mismatch(beg1, end1, beg2, pred)`: the pair of iterators at the first
      position where pred fails, advanced by the same amount. The second
      range must be at least as long as the first. */
  function MismatchBy<T, U>(a: seq<T>, b: seq<U>, pred: (T, U) -> bool): (r: (nat, nat))
    requires |a| <= |b|
    ensures r.0 == r.1 <= |a|
    ensures forall j :: 0 <= j < r.0 ==> pred(a[j], b[j])
    ensures r.0 < |a| ==> !pred(a[r.0], b[r.0])
  {
    var i := MismatchFrom(a, b, pred, 0);
    (i, i)
  }

  /** `mismatch(beg1, end1, beg2)`, comparing with `!=`. */
  function Mismatch<T(==)>(a: seq<T>, b: seq<T>): (r: (nat, nat))
    requires |a| <= |b|
    ensures r.0 == r.1 <= |a|
    ensures a[..r.0] == b[..r.0]
    ensures r.0 < |a| ==> a[r.0] != b[r.0]
  {
    MismatchBy(a, b, Equality())
  }

  /** The loop of `equal` from position i. */
  function EqualFrom<T, U>(a: seq<T>, b: seq<U>, pred: (T, U) -> bool, i: nat): (r: bool)
    requires i <= |a| <= |b|
    ensures r <==> forall j :: i <= j < |a| ==> pred(a[j], b[j])
    decreases |a| - i
  {
    if i == |a| then true
    else if !pred(a[i], b[i]) then false
    else EqualFrom(a, b, pred, i + 1)
  }

  /** `equal(beg1, end1, beg2, pred)`. */
  function EqualBy<T, U>(a: seq<T>, b: seq<U>, pred: (T, U) -> bool): (r: bool)
    requires |a| <= |b|
    ensures r <==> forall j :: 0 <= j < |a| ==> pred(a[j], b[j])
  {
    EqualFrom(a, b, pred, 0)
  }

  /** `equal(beg1, end1, beg2)`: the first range is a prefix of the second. */
  function Equal<T(==)>(a: seq<T>, b: seq<T>): (r: bool)
    requires |a| <= |b|
    ensures r <==> a == b[..|a|]
  {
    var r := EqualBy(a, b, Equality());
    assert r ==> a == b[..|a|] by {
      if r {
        assert forall j :: 0 <= j < |a| ==> a[j] == b[j];
      }
    }
    r
  }

  /** `equal` holds exactly when `mismatch` runs to the end of the first
      range. */
  lemma EqualIffNoMismatch<T, U>(a: seq<T>, b: seq<U>, pred: (T, U) -> bool)
    requires |a| <= |b|
    ensures EqualBy(a, b, pred) <==> MismatchBy(a, b, pred).0 == |a|
  {
  }

  // ---------------------------------------------------------------- remove

  /** Writing position k of a sequence extends the prefix before k by the
      written value and leaves everything from i > k on alone. */
  lemma WriteAt<T>(a: seq<T>, k: nat, x: T, i: nat)
    requires k < i <= |a|
    ensures a[k := x][..k + 1] == a[..k] + [x]
    ensures a[k := x][i..] == a[i..]
  {
  }

  /** The state of the `remove_if` loop before reading s[i]: the elements
      of s[..i] that pred rejects are kept, in order, in out[..newEnd], and
      the unread part is untouched. */
  ghost predicate RemoveState<T>(s: seq<T>, pred: T -> bool, out: seq<T>, newEnd: nat, i: nat) {
    && newEnd < i <= |s| && |out| == |s|
    && out[..newEnd] == Without(s[..i], pred)
    && out[i..] == s[i..]
  }

  /** One more element of a prefix extends its filter by that element or
      not at all. */
  lemma WithoutExtend<T>(s: seq<T>, i: nat, pred: T -> bool)
    requires i < |s|
    ensures pred(s[i]) ==> Without(s[..i + 1], pred) == Without(s[..i], pred)
    ensures !pred(s[i]) ==> Without(s[..i + 1], pred) == Without(s[..i], pred) + [s[i]]
  {
    assert s[..i + 1] == s[..i] + [s[i]];
    WithoutSnoc(s[..i], s[i], pred);
  }

  /** The loop starts after the first match, which `find_if` located. */
  lemma RemoveStart<T>(s: seq<T>, pred: T -> bool, pos: nat)
    requires pos < |s| && pred(s[pos])
    requires forall j :: 0 <= j < pos ==> !pred(s[j])
    ensures RemoveState(s, pred, s, pos, pos + 1)
  {
    WithoutNoMatch(s[..pos], pred);
    WithoutExtend(s, pos, pred);
  }

  /** The element about to be read is still the source's. */
  lemma RemoveUnread<T>(s: seq<T>, pred: T -> bool, out: seq<T>, newEnd: nat, i: nat)
    requires RemoveState(s, pred, out, newEnd, i) && i < |s|
    ensures out[i] == s[i]
  {
    assert out[i..][0] == s[i..][0];
  }

  /** An iteration that moves a rejected element to the new end keeps the
      loop state. */
  lemma RemoveKeep<T>(s: seq<T>, pred: T -> bool, out: seq<T>, newEnd: nat, i: nat)
    requires RemoveState(s, pred, out, newEnd, i) && i < |s|
    requires !pred(s[i])
    ensures RemoveState(s, pred, out[newEnd := s[i]], newEnd + 1, i + 1)
  {
    RemoveUnread(s, pred, out, newEnd, i);
    WithoutExtend(s, i, pred);
    WriteAt(out, newEnd, s[i], i + 1);
  }

  /** An iteration that passes over a match keeps the loop state. */
  lemma RemoveSkip<T>(s: seq<T>, pred: T -> bool, out: seq<T>, newEnd: nat, i: nat)
    requires RemoveState(s, pred, out, newEnd, i) && i < |s|
    requires pred(s[i])
    ensures RemoveState(s, pred, out, newEnd, i + 1)
  {
    WithoutExtend(s, i, pred);
    assert out[i + 1..] == out[i..][1..];
  }

  /** When the loop has read everything, the filtered range sits at the
      front. */
  lemma RemoveDone<T>(s: seq<T>, pred: T -> bool, out: seq<T>, newEnd: nat)
    requires RemoveState(s, pred, out, newEnd, |s|)
    ensures newEnd <= |s| && out[..newEnd] == Without(s, pred)
  {
    assert s[..|s|] == s;
  }

  /** The loop of `remove_if` after the first match. */
  method RemoveLoop<T>(s: seq<T>, pred: T -> bool, out0: seq<T>, newEnd0: nat, i0: nat) returns (out: seq<T>, newEnd: nat)
    requires RemoveState(s, pred, out0, newEnd0, i0)
    ensures |out| == |s| && newEnd <= |s|
    ensures out[..newEnd] == Without(s, pred)
  {
    out, newEnd := out0, newEnd0;
    var i := i0;
    while i < |s|
      invariant RemoveState(s, pred, out, newEnd, i)
      decreases |s| - i
    {
      RemoveUnread(s, pred, out, newEnd, i);
      var current := out[i];
      if !pred(current) {
        RemoveKeep(s, pred, out, newEnd, i);
        out := out[newEnd := current];
        newEnd := newEnd + 1;
      } else {
        RemoveSkip(s, pred, out, newEnd, i);
      }
      i := i + 1;
    }
    RemoveDone(s, pred, out, newEnd);
  }

  /** `remove_if`: the elements that do not satisfy pred are moved, in
      order, to the front; the result is the new end. A range with no match
      is returned as it is, with the old end. */
  method RemoveIf<T>(s: seq<T>, pred: T -> bool) returns (out: seq<T>, newEnd: nat)
    ensures |out| == |s| && newEnd <= |s|
    ensures out[..newEnd] == Without(s, pred)
    ensures (forall i :: 0 <= i < |s| ==> !pred(s[i])) ==> out == s && newEnd == |s|
  {
    var pos := FindIf(s, pred);
    if pos == |s| {
      WithoutNoMatch(s, pred);
      return s, |s|;
    }
    RemoveStart(s, pred, pos);
    out, newEnd := RemoveLoop(s, pred, s, pos, pos + 1);
  }

  /** `remove`: `remove_if` with the predicate `== elem`. */
  method Remove<T(==)>(s: seq<T>, v: T) returns (out: seq<T>, newEnd: nat)
    ensures |out| == |s| && newEnd <= |s|
    ensures out[..newEnd] == Without(s, EqualTo(v))
    ensures forall i :: 0 <= i < newEnd ==> out[i] != v
    ensures v !in s ==> out == s && newEnd == |s|
  {
    out, newEnd := RemoveIf(s, EqualTo(v));
    assert forall i :: 0 <= i < newEnd ==> out[..newEnd][i] == out[i];
  }

  /** The state of the `remove_copy_if` loop after reading src[..i]: the
      filter of what was read sits at [d, e), the filter of the rest still
      fits, and the rest of the destination is untouched. */
  ghost predicate RemoveCopyState<T>(src: seq<T>, dst: seq<T>, d: nat, pred: T -> bool, out: seq<T>, e: nat, i: nat) {
    && i <= |src| && |out| == |dst|
    && d <= e && e == d + |Without(src[..i], pred)|
    && e + |Without(src[i..], pred)| <= |dst|
    && out[d..e] == Without(src[..i], pred)
    && out[..d] == dst[..d] && out[e..] == dst[e..]
  }

  /** The filter of the unread part splits at its first element. */
  lemma WithoutUncons<T>(src: seq<T>, i: nat, pred: T -> bool)
    requires i < |src|
    ensures |Without(src[i..], pred)| == |Without([src[i]], pred)| + |Without(src[i + 1..], pred)|
    ensures |Without([src[i]], pred)| == if pred(src[i]) then 0 else 1
  {
    WithoutConcat([src[i]], src[i + 1..], pred);
    assert src[i..] == [src[i]] + src[i + 1..];
    assert [src[i]][..0] == [];
  }

  /** An iteration that copies src[i] keeps the loop state. */
  lemma RemoveCopyKeep<T>(src: seq<T>, dst: seq<T>, d: nat, pred: T -> bool, out: seq<T>, e: nat, i: nat)
    requires RemoveCopyState(src, dst, d, pred, out, e, i) && i < |src|
    requires !pred(src[i])
    ensures e < |dst|
    ensures RemoveCopyState(src, dst, d, pred, out[e := src[i]], e + 1, i + 1)
  {
    WithoutExtend(src, i, pred);
    WithoutUncons(src, i, pred);
    WriteAfter(out, d, e, src[i]);
  }

  /** An iteration that drops src[i] keeps the loop state. */
  lemma RemoveCopySkip<T>(src: seq<T>, dst: seq<T>, d: nat, pred: T -> bool, out: seq<T>, e: nat, i: nat)
    requires RemoveCopyState(src, dst, d, pred, out, e, i) && i < |src|
    requires pred(src[i])
    ensures RemoveCopyState(src, dst, d, pred, out, e, i + 1)
  {
    WithoutExtend(src, i, pred);
    WithoutUncons(src, i, pred);
  }

  /** `remove_copy_if`: writes the elements that do not satisfy pred to the
      destination from offset d and returns the end of what it wrote. */
  method RemoveCopyIf<T>(src: seq<T>, dst: seq<T>, d: nat, pred: T -> bool) returns (out: seq<T>, e: nat)
    requires d + |Without(src, pred)| <= |dst|
    ensures |out| == |dst| && e == d + |Without(src, pred)|
    ensures out[d..e] == Without(src, pred)
    ensures out[..d] == dst[..d] && out[e..] == dst[e..]
  {
    out := dst;
    e := d;
    var i := 0;
    assert src[..0] == [] && src[0..] == src;
    while i < |src|
      invariant RemoveCopyState(src, dst, d, pred, out, e, i)
      decreases |src| - i
    {
      var copy := src[i];
      if !pred(copy) {
        RemoveCopyKeep(src, dst, d, pred, out, e, i);
        out := out[e := copy];
        e := e + 1;
      } else {
        RemoveCopySkip(src, dst, d, pred, out, e, i);
      }
      i := i + 1;
    }
    assert src[..i] == src;
  }

  /** `remove_copy`: `remove_copy_if` with the predicate `== elem`. */
  method RemoveCopy<T(==)>(src: seq<T>, dst: seq<T>, d: nat, v: T) returns (out: seq<T>, e: nat)
    requires d + |Without(src, EqualTo(v))| <= |dst|
    ensures |out| == |dst| && e == d + |Without(src, EqualTo(v))|
    ensures out[d..e] == Without(src, EqualTo(v))
    ensures forall i :: d <= i < e ==> out[i] != v
    ensures out[..d] == dst[..d] && out[e..] == dst[e..]
  {
    out, e := RemoveCopyIf(src, dst, d, EqualTo(v));
    assert forall i :: d <= i < e ==> out[d..e][i - d] == out[i];
  }

  // ---------------------------------------------------- adjacent_find/unique

  /** Positions j and j + 1 both exist and pred relates their elements. */
  predicate RelatedPair<T>(s: seq<T>, pred: (T, T) -> bool, j: int) {
    0 <= j && j + 1 < |s| && pred(s[j], s[j + 1])
  }

  /** A prefix has no related pair that the whole range lacks. */
  lemma RelatedPairPrefix<T>(s: seq<T>, pred: (T, T) -> bool, k: nat)
    requires k <= |s|
    ensures forall j :: RelatedPair(s[..k], pred, j) ==> RelatedPair(s, pred, j)
  {
  }

  /** The loop of `adjacent_find` with `previous` at i. */
  function AdjacentFindFrom<T>(s: seq<T>, pred: (T, T) -> bool, i: nat): (r: nat)
    requires i < |s|
    ensures i <= r <= |s|
    ensures r < |s| ==> RelatedPair(s, pred, r)
    ensures forall j :: i <= j < r ==> !RelatedPair(s, pred, j)
    ensures r == |s| ==> forall j :: i <= j ==> !RelatedPair(s, pred, j)
    decreases |s| - i
  {
    if i + 1 == |s| then |s|
    else if pred(s[i], s[i + 1]) then i
    else AdjacentFindFrom(s, pred, i + 1)
  }

  /** `adjacent_find`: the first i with pred(s[i], s[i+1]), or the end. */
  function AdjacentFind<T>(s: seq<T>, pred: (T, T) -> bool): (r: nat)
    ensures r <= |s|
    ensures r < |s| ==> RelatedPair(s, pred, r)
    ensures forall j :: 0 <= j < r ==> !RelatedPair(s, pred, j)
    ensures r == |s| <==> forall j :: !RelatedPair(s, pred, j)
  {
    if s == [] then 0 else AdjacentFindFrom(s, pred, 0)
  }

  /** The reference for `unique`: each element is kept unless pred relates
      the last kept element to it. For an equivalence this collapses every
      run of equal elements to its first element. */
  function UniqueOf<T>(s: seq<T>, pred: (T, T) -> bool): (r: seq<T>)
    ensures |r| <= |s|
    ensures s != [] ==> r != [] && r[0] == s[0]
  {
    if s == [] then []
    else
      var u := UniqueOf(s[..|s| - 1], pred);
      if u != [] && pred(u[|u| - 1], s[|s| - 1]) then u else u + [s[|s| - 1]]
  }

  lemma {:induction false} UniqueOfSnoc<T>(s: seq<T>, x: T, pred: (T, T) -> bool)
    ensures var u := UniqueOf(s, pred);
      UniqueOf(s + [x], pred) == if u != [] && pred(u[|u| - 1], x) then u else u + [x]
  {
    var t := s + [x];
    assert t[..|t| - 1] == s;
    assert t[|t| - 1] == x;
  }

  /** A range with no adjacent related pair is its own `unique`. */
  lemma {:induction false} UniqueOfNoAdjacent<T>(s: seq<T>, pred: (T, T) -> bool)
    requires forall j :: !RelatedPair(s, pred, j)
    ensures UniqueOf(s, pred) == s
    decreases |s|
  {
    if s != [] {
      var s' := s[..|s| - 1];
      RelatedPairPrefix(s, pred, |s| - 1);
      UniqueOfNoAdjacent(s', pred);
      assert s == s' + [s[|s| - 1]];
      UniqueOfSnoc(s', s[|s| - 1], pred);
      assert |s| >= 2 ==> !RelatedPair(s, pred, |s| - 2);
    }
  }

  /** No two neighbours of the result of `unique` are related. */
  lemma {:induction false} UniqueOfHasNoAdjacent<T>(s: seq<T>, pred: (T, T) -> bool)
    ensures forall j :: !RelatedPair(UniqueOf(s, pred), pred, j)
    decreases |s|
  {
    if s != [] {
      var s' := s[..|s| - 1];
      var x := s[|s| - 1];
      UniqueOfHasNoAdjacent(s', pred);
      assert s == s' + [x];
      UniqueOfSnoc(s', x, pred);
      var u := UniqueOf(s', pred);
      if u != [] && !pred(u[|u| - 1], x) {
        forall j ensures !RelatedPair(u + [x], pred, j) {
          if 0 <= j < |u| - 1 {
            assert !RelatedPair(u, pred, j);
          }
        }
      }
    }
  }

  /** `unique` is idempotent. */
  lemma UniqueOfIdempotent<T>(s: seq<T>, pred: (T, T) -> bool)
    ensures UniqueOf(UniqueOf(s, pred), pred) == UniqueOf(s, pred)
  {
    UniqueOfHasNoAdjacent(s, pred);
    UniqueOfNoAdjacent(UniqueOf(s, pred), pred);
  }

  /** The heads of the runs of s: s[i] is kept exactly when i == 0 or pred
      does not relate s[i - 1] to it. Unlike `UniqueOf` it compares each
      element with its neighbour in the input, not with what was kept. */
  function RunHeads<T>(s: seq<T>, pred: (T, T) -> bool): (r: seq<T>)
    ensures |r| <= |s|
    ensures s != [] ==> r != [] && r[0] == s[0]
  {
    if s == [] then []
    else if |s| == 1 || !pred(s[|s| - 2], s[|s| - 1]) then RunHeads(s[..|s| - 1], pred) + [s[|s| - 1]]
    else RunHeads(s[..|s| - 1], pred)
  }

  /** Under an equivalence the last element kept is equivalent to the last
      element read. */
  lemma UniqueOfLastRelated<T(!new)>(s: seq<T>, pred: (T, T) -> bool)
    requires Equivalence(pred) && s != []
    ensures var u := UniqueOf(s, pred); u != [] && pred(u[|u| - 1], s[|s| - 1])
  {
  }

  /** For an equivalence, `unique` collapses every run of equivalent
      neighbours to its first element. */
  lemma {:induction false} UniqueOfIsRunHeads<T(!new)>(s: seq<T>, pred: (T, T) -> bool)
    requires Equivalence(pred)
    ensures UniqueOf(s, pred) == RunHeads(s, pred)
    decreases |s|
  {
    if |s| >= 2 {
      var s' := s[..|s| - 1];
      UniqueOfIsRunHeads(s', pred);
      UniqueOfLastRelated(s', pred);
      assert s'[|s'| - 1] == s[|s| - 2];
    }
  }

  /** r is s with some positions dropped: idx lists, in increasing order,
      the positions of s that r keeps. */
  ghost predicate SubsequenceAt<T>(r: seq<T>, s: seq<T>, idx: seq<nat>) {
    && |idx| == |r|
    && (forall k :: 0 <= k < |idx| ==> idx[k] < |s| && r[k] == s[idx[k]])
    && (forall k, l :: 0 <= k < l < |idx| ==> idx[k] < idx[l])
  }

  ghost predicate IsSubsequence<T>(r: seq<T>, s: seq<T>) {
    exists idx :: SubsequenceAt(r, s, idx)
  }

  /** Whatever pred is, `unique` only drops elements: the result is a
      subsequence of the input. */
  lemma {:induction false} UniqueOfIsSubsequence<T>(s: seq<T>, pred: (T, T) -> bool)
    ensures IsSubsequence(UniqueOf(s, pred), s)
    decreases |s|
  {
    if s == [] {
      assert SubsequenceAt([], s, []);
    } else {
      var s' := s[..|s| - 1];
      UniqueOfIsSubsequence(s', pred);
      var u := UniqueOf(s', pred);
      var idx: seq<nat> :| SubsequenceAt(u, s', idx);
      assert SubsequenceAt(u, s, idx);
      if !(u != [] && pred(u[|u| - 1], s[|s| - 1])) {
        assert SubsequenceAt(u + [s[|s| - 1]], s, idx + [|s| - 1]);
      }
    }
  }

  /** The result of `unique` on a prefix is no longer than on the whole. */
  lemma {:induction false} UniqueOfPrefix<T>(s: seq<T>, i: nat, pred: (T, T) -> bool)
    requires i <= |s|
    ensures |UniqueOf(s[..i], pred)| <= |UniqueOf(s, pred)|
    decreases |s|
  {
    if i < |s| {
      var s' := s[..|s| - 1];
      assert s[..i] == s'[..i];
      UniqueOfPrefix(s', i, pred);
    } else {
      assert s[..i] == s;
    }
  }

  /** The state of the `unique` loop before reading s[j]: the reference
      `unique` of s[..j] sits at out[..kept + 1] and the unread part is
      untouched. */
  ghost predicate UniqueState<T>(s: seq<T>, pred: (T, T) -> bool, out: seq<T>, kept: nat, j: nat) {
    && kept + 1 < j <= |s| && |out| == |s|
    && out[..kept + 1] == UniqueOf(s[..j], pred)
    && out[j..] == s[j..]
  }

  /** The element about to be read is still the source's. */
  lemma UniqueUnread<T>(s: seq<T>, pred: (T, T) -> bool, out: seq<T>, kept: nat, j: nat)
    requires UniqueState(s, pred, out, kept, j) && j < |s|
    ensures out[j] == s[j]
    ensures var u := UniqueOf(s[..j], pred); u != [] && u[|u| - 1] == out[kept]
  {
    assert out[j..][0] == s[j..][0];
    assert out[kept] == out[..kept + 1][kept];
  }

  /** An iteration that moves s[j] next to the last kept element keeps the
      loop state. */
  lemma UniqueKeep<T>(s: seq<T>, pred: (T, T) -> bool, out: seq<T>, kept: nat, j: nat)
    requires UniqueState(s, pred, out, kept, j) && j < |s|
    requires !pred(out[kept], s[j])
    ensures UniqueState(s, pred, out[kept + 1 := s[j]], kept + 1, j + 1)
  {
    UniqueUnread(s, pred, out, kept, j);
    UniqueOfExtend(s, j, pred);
    WriteAt(out, kept + 1, s[j], j + 1);
  }

  /** An iteration that skips s[j] keeps the loop state. */
  lemma UniqueSkip<T>(s: seq<T>, pred: (T, T) -> bool, out: seq<T>, kept: nat, j: nat)
    requires UniqueState(s, pred, out, kept, j) && j < |s|
    requires pred(out[kept], s[j])
    ensures UniqueState(s, pred, out, kept, j + 1)
  {
    UniqueUnread(s, pred, out, kept, j);
    UniqueOfExtend(s, j, pred);
    assert out[j + 1..] == out[j..][1..];
  }

  /** Up to and including the first related pair, `unique` keeps the
      prefix and drops the pair's second element. */
  lemma UniqueStart<T>(s: seq<T>, pred: (T, T) -> bool, a: nat)
    requires RelatedPair(s, pred, a)
    requires forall j :: 0 <= j < a ==> !RelatedPair(s, pred, j)
    ensures UniqueOf(s[..a + 2], pred) == s[..a + 1]
    ensures UniqueState(s, pred, s, a, a + 2)
  {
    var p := s[..a + 1];
    forall j ensures !RelatedPair(p, pred, j) {
      if 0 <= j < a {
        assert !RelatedPair(s, pred, j);
      }
    }
    UniqueOfNoAdjacent(p, pred);
    assert s[..a + 2] == p + [s[a + 1]];
    UniqueOfSnoc(p, s[a + 1], pred);
  }

  /** When the loop has read everything, the reference `unique` of the
      whole range sits at the front. */
  lemma UniqueDone<T>(s: seq<T>, pred: (T, T) -> bool, out: seq<T>, kept: nat)
    requires UniqueState(s, pred, out, kept, |s|)
    ensures kept + 1 <= |s| && out[..kept + 1] == UniqueOf(s, pred)
  {
    assert s[..|s|] == s;
  }

  /** The loop of `unique` from the state after the first related pair:
      each later element is moved next to the last kept one unless pred
      relates the two. Returns the new end. */
  method UniqueLoop<T>(s: seq<T>, pred: (T, T) -> bool, out0: seq<T>, kept0: nat, j0: nat) returns (out: seq<T>, newEnd: nat)
    requires UniqueState(s, pred, out0, kept0, j0)
    ensures |out| == |s| && newEnd <= |s|
    ensures out[..newEnd] == UniqueOf(s, pred)
  {
    out, newEnd := out0, kept0;
    var j := j0;
    while j < |s|
      invariant UniqueState(s, pred, out, newEnd, j)
      decreases |s| - j
    {
      UniqueUnread(s, pred, out, newEnd, j);
      var current := out[j];
      if !pred(out[newEnd], current) {
        UniqueKeep(s, pred, out, newEnd, j);
        out := out[newEnd + 1 := current];
        newEnd := newEnd + 1;
      } else {
        UniqueSkip(s, pred, out, newEnd, j);
      }
      j := j + 1;
    }
    UniqueDone(s, pred, out, newEnd);
    newEnd := newEnd + 1;
  }

  /** `unique(beg, end, pred)`: `adjacent_find`, then the loop from the
      first related pair. Returns the new end; a range without related
      neighbours is left as it is. */
  method Unique<T(!new)>(s: seq<T>, pred: (T, T) -> bool) returns (out: seq<T>, newEnd: nat)
    ensures |out| == |s| && newEnd <= |s|
    ensures out[..newEnd] == UniqueOf(s, pred)
    ensures Equivalence(pred) ==> out[..newEnd] == RunHeads(s, pred)
    ensures AdjacentFind(s, pred) == |s| ==> out == s && newEnd == |s|
  {
    var a := AdjacentFind(s, pred);
    if a == |s| {
      UniqueOfNoAdjacent(s, pred);
      out, newEnd := s, |s|;
    } else {
      UniqueStart(s, pred, a);
      out, newEnd := UniqueLoop(s, pred, s, a, a + 2);
    }
    if Equivalence(pred) {
      UniqueOfIsRunHeads(s, pred);
    }
  }

  /** The state of the `unique_copy` loop after reading src[..i]: the
      reference `unique` of what was read sits at [d, e) and the rest of the
      destination is untouched. */
  ghost predicate UniqueCopyState<T>(src: seq<T>, dst: seq<T>, d: nat, pred: (T, T) -> bool, out: seq<T>, e: nat, i: nat) {
    && 1 <= i <= |src| && |out| == |dst|
    && d < e <= |dst| && e == d + |UniqueOf(src[..i], pred)|
    && out[d..e] == UniqueOf(src[..i], pred)
    && out[..d] == dst[..d] && out[e..] == dst[e..]
  }

  /** Copying the first element starts the loop. */
  lemma UniqueCopyStart<T>(src: seq<T>, dst: seq<T>, d: nat, pred: (T, T) -> bool)
    requires src != [] && d + |UniqueOf(src, pred)| <= |dst|
    ensures UniqueCopyState(src, dst, d, pred, dst[d := src[0]], d + 1, 1)
  {
    assert src[..1] == [] + [src[0]];
    UniqueOfSnoc([], src[0], pred);
    UniqueOfPrefix(src, 1, pred);
  }

  /** Reading one more element extends the reference `unique` of what was
      read by that element or not at all. */
  lemma UniqueOfExtend<T>(src: seq<T>, i: nat, pred: (T, T) -> bool)
    requires 1 <= i < |src|
    ensures UniqueOf(src[..i], pred) != []
    ensures var u := UniqueOf(src[..i], pred);
      pred(u[|u| - 1], src[i]) ==> UniqueOf(src[..i + 1], pred) == u
    ensures var u := UniqueOf(src[..i], pred);
      !pred(u[|u| - 1], src[i]) ==> UniqueOf(src[..i + 1], pred) == u + [src[i]]
  {
    assert src[..i + 1] == src[..i] + [src[i]];
    UniqueOfSnoc(src[..i], src[i], pred);
  }

  /** Writing position e extends the slice [d, e) by the written value and
      leaves the rest alone. */
  lemma WriteAfter<T>(out: seq<T>, d: nat, e: nat, x: T)
    requires d <= e < |out|
    ensures out[e := x][d..e + 1] == out[d..e] + [x]
    ensures out[e := x][e + 1..] == out[e + 1..]
    ensures out[e := x][..d] == out[..d]
  {
  }

  /** The last element written is the last of the reference `unique`. */
  lemma UniqueCopyLast<T>(src: seq<T>, dst: seq<T>, d: nat, pred: (T, T) -> bool, out: seq<T>, e: nat, i: nat)
    requires UniqueCopyState(src, dst, d, pred, out, e, i)
    ensures var u := UniqueOf(src[..i], pred); u != [] && u[|u| - 1] == out[e - 1]
  {
    assert out[d..e][e - 1 - d] == out[e - 1];
  }

  /** An iteration that writes src[i] keeps the loop state. */
  lemma UniqueCopyKeep<T>(src: seq<T>, dst: seq<T>, d: nat, pred: (T, T) -> bool, out: seq<T>, e: nat, i: nat)
    requires d + |UniqueOf(src, pred)| <= |dst|
    requires UniqueCopyState(src, dst, d, pred, out, e, i) && i < |src|
    requires !pred(out[e - 1], src[i])
    ensures e < |dst|
    ensures UniqueCopyState(src, dst, d, pred, out[e := src[i]], e + 1, i + 1)
  {
    UniqueCopyLast(src, dst, d, pred, out, e, i);
    UniqueOfExtend(src, i, pred);
    UniqueOfPrefix(src, i + 1, pred);
    WriteAfter(out, d, e, src[i]);
  }

  /** An iteration that skips src[i] keeps the loop state. */
  lemma UniqueCopySkip<T>(src: seq<T>, dst: seq<T>, d: nat, pred: (T, T) -> bool, out: seq<T>, e: nat, i: nat)
    requires UniqueCopyState(src, dst, d, pred, out, e, i) && i < |src|
    requires pred(out[e - 1], src[i])
    ensures UniqueCopyState(src, dst, d, pred, out, e, i + 1)
  {
    UniqueCopyLast(src, dst, d, pred, out, e, i);
    UniqueOfExtend(src, i, pred);
  }

  /** `unique_copy(srcBeg, srcEnd, desBeg, pred)`: writes the result of
      `unique` to the destination from offset d. */
  method UniqueCopy<T(!new)>(src: seq<T>, dst: seq<T>, d: nat, pred: (T, T) -> bool) returns (out: seq<T>, e: nat)
    requires d + |UniqueOf(src, pred)| <= |dst|
    ensures |out| == |dst| && e == d + |UniqueOf(src, pred)|
    ensures out[d..e] == UniqueOf(src, pred)
    ensures Equivalence(pred) ==> out[d..e] == RunHeads(src, pred)
    ensures out[..d] == dst[..d] && out[e..] == dst[e..]
  {
    if Equivalence(pred) {
      UniqueOfIsRunHeads(src, pred);
    }
    if src == [] {
      return dst, d;
    }
    var lastOutput := src[0];
    out := dst[d := lastOutput];
    e := d + 1;
    UniqueCopyStart(src, dst, d, pred);
    var i := 1;
    while i < |src|
      invariant UniqueCopyState(src, dst, d, pred, out, e, i)
      invariant lastOutput == out[e - 1]
    {
      var current := src[i];
      if !pred(lastOutput, current) {
        UniqueCopyKeep(src, dst, d, pred, out, e, i);
        out := out[e := current];
        e := e + 1;
        lastOutput := current;
      } else {
        UniqueCopySkip(src, dst, d, pred, out, e, i);
      }
      i := i + 1;
    }
    assert src[..i] == src;
  }

  // ------------------------------------------------------- min/max elements

  /** The loop of `min_element` from cursor j, with m the current minimum. */
  function MinFrom<T>(s: seq<T>, comp: (T, T) -> bool, m: nat, j: nat): (r: nat)
    requires m < j <= |s|
    ensures m <= r < |s|
    ensures r == m || j <= r
    decreases |s| - j
  {
    if j == |s| then m
    else MinFrom(s, comp, if comp(s[j], s[m]) then j else m, j + 1)
  }

  /** The loop of `max_element` from cursor j, with m the current maximum. */
  function MaxFrom<T>(s: seq<T>, comp: (T, T) -> bool, m: nat, j: nat): (r: nat)
    requires m < j <= |s|
    ensures m <= r < |s|
    decreases |s| - j
  {
    if j == |s| then m
    else MaxFrom(s, comp, if comp(s[m], s[j]) then j else m, j + 1)
  }

  /** MinFrom finds the first minimum of s[m..] among the positions it visits,
      given that m is already the first minimum of s[..j] minus the
      skipped positions. */
  lemma {:induction false} MinFromIsFirstMin<T(!new)>(s: seq<T>, comp: (T, T) -> bool, m: nat, j: nat, skip: set<nat>)
    requires StrictWeakOrder(comp)
    requires m < j <= |s| && m !in skip
    requires forall k :: 0 <= k < j && k !in skip ==> !comp(s[k], s[m])
    requires forall k :: 0 <= k < m && k !in skip ==> comp(s[m], s[k])
    requires forall k :: k in skip ==> k < j
    ensures var r := MinFrom(s, comp, m, j);
      && r !in skip
      && (forall k :: 0 <= k < |s| && k !in skip ==> !comp(s[k], s[r]))
      && (forall k :: 0 <= k < r && k !in skip ==> comp(s[r], s[k]))
    decreases |s| - j
  {
    if j < |s| {
      var m' := if comp(s[j], s[m]) then j else m;
      MinFromIsFirstMin(s, comp, m', j + 1, skip);
    }
  }

  lemma {:induction false} MaxFromIsFirstMax<T(!new)>(s: seq<T>, comp: (T, T) -> bool, m: nat, j: nat)
    requires StrictWeakOrder(comp)
    requires m < j <= |s|
    requires forall k :: 0 <= k < j ==> !comp(s[m], s[k])
    requires forall k :: 0 <= k < m ==> comp(s[k], s[m])
    ensures var r := MaxFrom(s, comp, m, j);
      && (forall k :: 0 <= k < |s| ==> !comp(s[r], s[k]))
      && (forall k :: 0 <= k < r ==> comp(s[k], s[r]))
    decreases |s| - j
  {
    if j < |s| {
      var m' := if comp(s[m], s[j]) then j else m;
      MaxFromIsFirstMax(s, comp, m', j + 1);
    }
  }

  /** `min_element` as evidently intended: the first position holding a
      least element, or the end of an empty range. */
  function MinElement<T(!new)>(s: seq<T>, comp: (T, T) -> bool): (r: nat)
    ensures r <= |s| && (r == |s| <==> s == [])
    ensures StrictWeakOrder(comp) && s != [] ==>
      && (forall k :: 0 <= k < |s| ==> !comp(s[k], s[r]))
      && (forall k :: 0 <= k < r ==> comp(s[r], s[k]))
  {
    if s == [] then 0
    else
      assert StrictWeakOrder(comp) ==> var r := MinFrom(s, comp, 0, 1);
        && (forall k :: 0 <= k < |s| ==> !comp(s[k], s[r]))
        && (forall k :: 0 <= k < r ==> comp(s[r], s[k])) by {
        if StrictWeakOrder(comp) {
          MinFromIsFirstMin(s, comp, 0, 1, {});
        }
      }
      MinFrom(s, comp, 0, 1)
  }

  /** `min_element` as written: the extra `++beg` before the loop skips the
      second position (and runs past the end of a one-element range, which
      is left undefined here). */
  function MinElementAsWritten<T>(s: seq<T>, comp: (T, T) -> bool): (r: nat)
    requires |s| != 1
    ensures r <= |s| && (r == |s| <==> s == [])
    ensures s != [] ==> r != 1
  {
    if s == [] then 0 else MinFrom(s, comp, 0, 2)
  }

  /** What the written loop does find: a least element among all positions
      but the second. */
  lemma MinElementAsWrittenIgnoresSecond<T(!new)>(s: seq<T>, comp: (T, T) -> bool)
    requires StrictWeakOrder(comp) && |s| >= 2
    ensures var r := MinElementAsWritten(s, comp);
      forall k :: 0 <= k < |s| && k != 1 ==> !comp(s[k], s[r])
  {
    MinFromIsFirstMin(s, comp, 0, 2, {1});
  }

  /** On [2, 1] the written loop returns the position of 2. */
  lemma MinElementMissesSecond()
    ensures MinElementAsWritten([2, 1], (x: int, y: int) => x < y) == 0
    ensures MinElement([2, 1], (x: int, y: int) => x < y) == 1
  {
  }

  /** `max_element`: the first position holding a greatest element, or the
      end of an empty range. */
  function MaxElement<T(!new)>(s: seq<T>, comp: (T, T) -> bool): (r: nat)
    ensures r <= |s| && (r == |s| <==> s == [])
    ensures StrictWeakOrder(comp) && s != [] ==>
      && (forall k :: 0 <= k < |s| ==> !comp(s[r], s[k]))
      && (forall k :: 0 <= k < r ==> comp(s[k], s[r]))
  {
    if s == [] then 0
    else
      assert StrictWeakOrder(comp) ==> var r := MaxFrom(s, comp, 0, 1);
        && (forall k :: 0 <= k < |s| ==> !comp(s[r], s[k]))
        && (forall k :: 0 <= k < r ==> comp(s[k], s[r])) by {
        if StrictWeakOrder(comp) {
          MaxFromIsFirstMax(s, comp, 0, 1);
        }
      }
      MaxFrom(s, comp, 0, 1)
  }

  /** The loop of `minmax_element`, tracking both positions at once. */
  function MinmaxFrom<T>(s: seq<T>, comp: (T, T) -> bool, lo: nat, hi: nat, j: nat): (r: (nat, nat))
    requires lo < j && hi < j && j <= |s|
    ensures r.0 < |s| && r.1 < |s|
    decreases |s| - j
  {
    if j == |s| then (lo, hi)
    else
      MinmaxFrom(s, comp,
        if comp(s[j], s[lo]) then j else lo,
        if comp(s[hi], s[j]) then j else hi,
        j + 1)
  }

  /** `minmax_element`: both ends of an empty range, else the positions
      `min_element` (as intended) and `max_element` find, in one pass. */
  function MinmaxElement<T(!new)>(s: seq<T>, comp: (T, T) -> bool): (r: (nat, nat))
    ensures s == [] ==> r == (0, 0)
    ensures s != [] ==> r == (MinElement(s, comp), MaxElement(s, comp))
  {
    if s == [] then (0, 0)
    else
      MinmaxFromSplits(s, comp, 0, 0, 1);
      MinmaxFrom(s, comp, 0, 0, 1)
  }

  lemma {:induction false} MinmaxFromSplits<T>(s: seq<T>, comp: (T, T) -> bool, lo: nat, hi: nat, j: nat)
    requires lo < j && hi < j && j <= |s|
    ensures MinmaxFrom(s, comp, lo, hi, j) == (MinFrom(s, comp, lo, j), MaxFrom(s, comp, hi, j))
    decreases |s| - j
  {
    if j < |s| {
      MinmaxFromSplits(s, comp,
        if comp(s[j], s[lo]) then j else lo,
        if comp(s[hi], s[j]) then j else hi,
        j + 1);
    }
  }
}

=== FILE: forward_list.dfy ===
/** The singly linked list `wood_STL::forward_list`, modelled as the sequence
    of node values after the dummy head together with the tracked counter
    `size_`. Iterators are positions: the dummy head (`before_begin`), the
    k-th node, or the null iterator `end`. Node ownership is not modelled. */
module ForwardList {
  import opened Results

  datatype FList<T> = FList(nodes: seq<T>, size: nat) {
    /** The counter `size_` agrees with the number of nodes. */
    ghost predicate Valid() {
      size == |nodes|
    }
  }

  datatype Pos = BeforeBegin | Node(k: nat) | End

  /** The conditions under which `forward_list_exception` is thrown. Only
      the condition is modelled, not the message text, which also names the
      throwing member: `insert_after`, `emplace_after` and `erase_after`
      each report an off-the-end position in their own words, and `front`
      and `pop_front` each report an empty list in theirs. */
  datatype Failure = OffTheEnd | NoElementAfter | EmptyList

  /** The list as it stands when an operation returns or throws. */
  datatype Step<T> = Step(list: FList<T>, outcome: Result<Pos, Failure>)

  /** A position that belongs to the list l. */
  predicate ValidPos<T>(l: FList<T>, p: Pos) {
    p.Node? ==> p.k < |l.nodes|
  }

  /** Index of the node that follows p. */
  function After(p: Pos): nat
    requires p != End
  {
    if p.BeforeBegin? then 0 else p.k + 1
  }

  /** The iterator to node i of a list of n nodes; i == n is `end`. */
  function PosOf(i: nat, n: nat): (p: Pos)
    requires i <= n
    ensures p != BeforeBegin
  {
    if i < n then Node(i) else End
  }

  /** Index of the node an iterator points at; `end` is one past the last. */
  function NodeIndex<T>(l: FList<T>, p: Pos): nat
    requires ValidPos(l, p) && p != BeforeBegin
  {
    if p.Node? then p.k else |l.nodes|
  }

  /** `++p`. */
  function Next<T>(l: FList<T>, p: Pos): (q: Pos)
    requires ValidPos(l, p) && p != End
    ensures ValidPos(l, q) && q != BeforeBegin
    ensures q == End <==> After(p) == |l.nodes|
    ensures q != End ==> q == Node(After(p))
  {
    PosOf(After(p), |l.nodes|)
  }

  /** `std::advance(before_begin(), k)`. */
  function Advance<T>(l: FList<T>, k: nat): (p: Pos)
    requires k <= |l.nodes|
    ensures ValidPos(l, p) && p != End && After(p) == k
  {
    if k == 0 then BeforeBegin else Node(k - 1)
  }

  /** `*p`. */
  function Deref<T>(l: FList<T>, p: Pos): T
    requires ValidPos(l, p) && p.Node?
  {
    l.nodes[p.k]
  }

  function Empty<T>(): (l: FList<T>)
    ensures l.Valid() && l.nodes == []
  {
    FList([], 0)
  }

  /** `size()` reads the counter, which on a valid list is the number of
      nodes. */
  function Size<T>(l: FList<T>): (n: nat)
    ensures l.Valid() ==> n == |l.nodes|
  {
    l.size
  }

  function IsEmpty<T>(l: FList<T>): (b: bool)
    requires l.Valid()
    ensures b <==> l.nodes == []
  {
    l.size == 0
  }

  /** `emplace_after(p, v)`: a new node holding v right after p; the result
      points at it. An `end` position throws before anything changes. */
  function EmplaceAfter<T>(l: FList<T>, p: Pos, v: T): (r: Result<(FList<T>, Pos), Failure>)
    requires l.Valid() && ValidPos(l, p)
    ensures r.Err? <==> p == End
    ensures r.Err? ==> r.error == OffTheEnd
    ensures r.Ok? ==> var (l', q) := r.value;
      && l'.Valid() && l'.size == l.size + 1
      && ValidPos(l', q) && q == Node(After(p)) && Deref(l', q) == v
      && l'.nodes[..After(p)] == l.nodes[..After(p)]
      && l'.nodes[After(p) + 1..] == l.nodes[After(p)..]
  {
    if p == End then Err(OffTheEnd)
    else
      var i := After(p);
      Ok((FList(l.nodes[..i] + [v] + l.nodes[i..], l.size + 1), Node(i)))
  }

  /** `insert_after(p, v)`: the same check, then `emplace_after`. */
  function InsertAfter<T>(l: FList<T>, p: Pos, v: T): (r: Result<(FList<T>, Pos), Failure>)
    requires l.Valid() && ValidPos(l, p)
    ensures r.Err? <==> p == End
    ensures r.Err? ==> r.error == OffTheEnd
    ensures r.Ok? ==> var (l', q) := r.value;
      && l'.Valid() && l'.size == l.size + 1
      && ValidPos(l', q) && q == Node(After(p)) && Deref(l', q) == v
      && l'.nodes == l.nodes[..After(p)] + [v] + l.nodes[After(p)..]
  {
    if p == End then Err(OffTheEnd)
    else
      var r := EmplaceAfter(l, p, v);
      assert r.value.0.nodes == l.nodes[..After(p)] + [v] + l.nodes[After(p)..] by {
        var n := r.value.0.nodes;
        assert n == n[..After(p)] + [n[After(p)]] + n[After(p) + 1..];
      }
      r
  }

  /** `insert_after(p, first, last)`: one `insert_after` per element, each
      after the node just inserted. The result is the last inserted node, or
      p itself when the range is empty (even when p is `end`). */
  function InsertAfterRange<T>(l: FList<T>, p: Pos, src: seq<T>): (r: Result<(FList<T>, Pos), Failure>)
    requires l.Valid() && ValidPos(l, p)
    ensures src == [] ==> r == Ok((l, p))
    ensures src != [] ==> (r.Err? <==> p == End)
    ensures r.Err? ==> r.error == OffTheEnd
    ensures src != [] && r.Ok? ==> var (l', q) := r.value;
      && l'.Valid() && l'.size == l.size + |src|
      && ValidPos(l', q) && q == Node(After(p) + |src| - 1)
      && l'.nodes == l.nodes[..After(p)] + src + l.nodes[After(p)..]
    decreases |src|
  {
    if src == [] then Ok((l, p))
    else if p == End then Err(OffTheEnd)
    else
      InsertAfterStep(l, p, src);
      InsertAfterRange(InsertAfter(l, p, src[0]).value.0, Node(After(p)), src[1..])
  }

  /** The first insertion of `insert_after(p, first, last)`: splicing the
      rest of the range after the new node splices the whole range after p. */
  lemma InsertAfterStep<T>(l: FList<T>, p: Pos, src: seq<T>)
    requires l.Valid() && ValidPos(l, p) && p != End && src != []
    ensures InsertAfter(l, p, src[0]).Ok?
    ensures var l1 := InsertAfter(l, p, src[0]).value.0;
      && l1.Valid() && l1.size == l.size + 1 && ValidPos(l1, Node(After(p)))
      && l1.nodes[..After(p) + 1] + src[1..] + l1.nodes[After(p) + 1..] == l.nodes[..After(p)] + src + l.nodes[After(p)..]
      && (|src| == 1 ==> l1.nodes == l.nodes[..After(p)] + src + l.nodes[After(p)..])
  {
    SpliceTwice(l.nodes, After(p), src[0], src[1..]);
    assert [src[0]] + src[1..] == src;
  }

  /** Splicing x at i and then rest right after x splices [x] + rest at i. */
  lemma SpliceTwice<T>(a: seq<T>, i: nat, x: T, rest: seq<T>)
    requires i <= |a|
    ensures var b := a[..i] + [x] + a[i..];
      b[..i + 1] + rest + b[i + 1..] == a[..i] + ([x] + rest) + a[i..]
  {
    var b := a[..i] + [x] + a[i..];
    assert b[..i + 1] == a[..i] + [x];
    assert b[i + 1..] == a[i..];
  }

  /** `insert_after(p, n, v)`: n copies of v, by the same loop. */
  function InsertAfterCount<T>(l: FList<T>, p: Pos, n: nat, v: T): (r: Result<(FList<T>, Pos), Failure>)
    requires l.Valid() && ValidPos(l, p)
    ensures n == 0 ==> r == Ok((l, p))
    ensures n > 0 ==> (r.Err? <==> p == End)
    ensures n > 0 && r.Ok? ==> var (l', q) := r.value;
      && l'.Valid() && l'.size == l.size + n && q == Node(After(p) + n - 1)
      && l'.nodes == l.nodes[..After(p)] + seq(n, _ => v) + l.nodes[After(p)..]
  {
    InsertAfterRange(l, p, seq(n, _ => v))
  }

  /** `erase_after(p)`: unlinks the node after p and returns the node that
      now follows p. Throws, changing nothing, when p is `end` or is the
      last node. */
  function EraseAfter<T>(l: FList<T>, p: Pos): (r: Result<(FList<T>, Pos), Failure>)
    requires l.Valid() && ValidPos(l, p)
    ensures p == End ==> r == Err(OffTheEnd)
    ensures p != End ==> (r.Err? <==> After(p) >= |l.nodes|)
    ensures p != End && r.Err? ==> r.error == NoElementAfter
    ensures r.Ok? ==> var (l', q) := r.value;
      && l'.Valid() && l'.size == l.size - 1 && |l'.nodes| == |l.nodes| - 1
      && l'.nodes == l.nodes[..After(p)] + l.nodes[After(p) + 1..]
      && ValidPos(l', q) && q == Next(l', p)
  {
    if p == End then Err(OffTheEnd)
    else if After(p) >= |l.nodes| then Err(NoElementAfter)
    else
      var i := After(p);
      var nodes := l.nodes[..i] + l.nodes[i + 1..];
      Ok((FList(nodes, l.size - 1), PosOf(i, |nodes|)))
  }

  /** The renumbering of the iterator `last` when node e is erased: nodes
      behind it move one place forward, `end` stays `end`. */
  function Renumber(last: Pos, e: nat): Pos
    requires last.Node? ==> last.k > e
  {
    if last.Node? then Node(last.k - 1) else last
  }

  /** `erase_after(p, last)` as its loop is evidently meant to run: erase the
      successor of p until p's successor is `last`. Removes exactly the nodes
      strictly between p and last and returns last. */
  function EraseAfterRange<T>(l: FList<T>, p: Pos, last: Pos): (r: (FList<T>, Pos))
    requires l.Valid() && ValidPos(l, p) && ValidPos(l, last)
    requires p != End && last != BeforeBegin
    requires After(p) <= NodeIndex(l, last)
    ensures r.0.Valid()
    ensures r.0.nodes == l.nodes[..After(p)] + l.nodes[NodeIndex(l, last)..]
    ensures ValidPos(r.0, r.1) && r.1 == PosOf(After(p), |r.0.nodes|)
    ensures last.Node? ==> r.1.Node? && Deref(r.0, r.1) == Deref(l, last)
    decreases NodeIndex(l, last) - After(p)
  {
    if Next(l, p) == last then (l, last)
    else
      EraseAfterStep(l, p, last);
      EraseAfterRange(EraseAfter(l, p).value.0, p, Renumber(last, After(p)))
  }

  /** One erasure inside `erase_after(p, last)`: the node after p goes, and
      the renumbered `last` still designates the same node with the same
      nodes behind it. */
  lemma EraseAfterStep<T>(l: FList<T>, p: Pos, last: Pos)
    requires l.Valid() && ValidPos(l, p) && ValidPos(l, last)
    requires p != End && last != BeforeBegin
    requires After(p) <= NodeIndex(l, last) && Next(l, p) != last
    ensures EraseAfter(l, p).Ok?
    ensures var l1 := EraseAfter(l, p).value.0;
      var last1 := Renumber(last, After(p));
      && l1.Valid() && ValidPos(l1, p) && ValidPos(l1, last1)
      && NodeIndex(l1, last1) == NodeIndex(l, last) - 1
      && After(p) <= NodeIndex(l1, last1)
      && l1.nodes[..After(p)] == l.nodes[..After(p)]
      && l1.nodes[NodeIndex(l1, last1)..] == l.nodes[NodeIndex(l, last)..]
  {
    var l1 := EraseAfter(l, p).value.0;
    assert l1.nodes[..After(p)] == l.nodes[..After(p)];
  }

  /** An iterator the loop compares against, whose node may have been freed. */
  datatype Target = Live(p: Pos) | Freed

  /** The renumbering of a compared-against iterator when node e is erased;
      erasing its own node leaves it dangling. */
  function Track(t: Target, e: nat): Target {
    if t.Live? && t.p.Node? then
      if t.p.k == e then Freed
      else if t.p.k > e then Live(Node(t.p.k - 1))
      else t
    else t
  }

  /** The loop of `erase_after(p, last)` as written: `next_erased =
      erase_after(next_erased)` erases the node AFTER the cursor, so every
      other node survives. */
  function EraseLoopAsWritten<T>(l: FList<T>, cur: Pos, last: Target): (r: Step<T>)
    requires l.Valid() && ValidPos(l, cur) && (last.Live? ==> ValidPos(l, last.p))
    ensures r.list.Valid() && |r.list.nodes| <= |l.nodes|
    ensures cur.Node? ==> |r.list.nodes| > cur.k && r.list.nodes[..cur.k + 1] == l.nodes[..cur.k + 1]
    decreases |l.nodes|
  {
    if last == Live(cur) then Step(l, Ok(cur))
    else
      match EraseAfter(l, cur)
      case Err(e) => Step(l, Err(e))
      case Ok((l1, next)) =>
        var r := EraseLoopAsWritten(l1, next, Track(last, After(cur)));
        assert cur.Node? ==> l1.nodes[..cur.k + 1] == l.nodes[..cur.k + 1];
        r
  }

  /** `erase_after(p, last)` as written. */
  function EraseAfterRangeAsWritten<T>(l: FList<T>, p: Pos, last: Pos): (r: Step<T>)
    requires l.Valid() && ValidPos(l, p) && ValidPos(l, last) && p != End
    ensures r.list.Valid() && |r.list.nodes| <= |l.nodes|
    ensures |r.list.nodes| >= After(p) && r.list.nodes[..After(p)] == l.nodes[..After(p)]
  {
    if Next(l, p) == last then Step(l, Ok(last))
    else
      match EraseAfter(l, p)
      case Err(e) => Step(l, Err(e))
      case Ok((l1, next)) =>
        var r := EraseLoopAsWritten(l1, next, Track(Live(last), After(p)));
        assert l1.nodes[..After(p)] == l.nodes[..After(p)];
        assert next.Node? ==> r.list.nodes[..After(p)] == r.list.nodes[..next.k + 1][..After(p)];
        r
  }

  /** The erase of four nodes [1, 2, 3, 4] strictly between `before_begin`
      and the fourth node: as written it erases 1 and 3 and keeps 2; the
      intended loop leaves only 4. */
  lemma EraseAfterRangeSkipsNodes()
    ensures EraseAfterRangeAsWritten(FList([1, 2, 3, 4], 4), BeforeBegin, Node(3))
            == Step(FList([2, 4], 2), Ok(Node(1)))
    ensures EraseAfterRange(FList([1, 2, 3, 4], 4), BeforeBegin, Node(3))
            == (FList([4], 1), Node(0))
  {
  }

  /** `push_front(v)` / `emplace_front`. */
  function PushFront<T>(l: FList<T>, v: T): (r: FList<T>)
    requires l.Valid()
    ensures r.Valid() && Size(r) == Size(l) + 1
    ensures r.nodes == [v] + l.nodes
  {
    InsertAfter(l, BeforeBegin, v).value.0
  }

  /** `front()`: throws on an empty list. */
  function Front<T>(l: FList<T>): (r: Result<T, Failure>)
    requires l.Valid()
    ensures r.Err? <==> l.nodes == []
    ensures r.Err? ==> r.error == EmptyList
    ensures r.Ok? ==> r.value == l.nodes[0]
  {
    if IsEmpty(l) then Err(EmptyList) else Ok(Deref(l, Node(0)))
  }

  /** `pop_front()`: throws on an empty list, else erases after the head. */
  function PopFront<T>(l: FList<T>): (r: Result<FList<T>, Failure>)
    requires l.Valid()
    ensures r.Err? <==> l.nodes == []
    ensures r.Err? ==> r.error == EmptyList
    ensures r.Ok? ==> r.value.Valid() && Size(r.value) == Size(l) - 1 && r.value.nodes == l.nodes[1..]
  {
    if IsEmpty(l) then Err(EmptyList) else Ok(EraseAfter(l, BeforeBegin).value.0)
  }

  /** `clear()`. */
  function Clear<T>(l: FList<T>): (r: FList<T>)
    ensures r.Valid() && Size(r) == 0 && IsEmpty(r)
  {
    FList([], 0)
  }

  /** `assign(first, last)`: clear, then insert the range after the head. */
  function Assign<T>(l: FList<T>, src: seq<T>): (r: FList<T>)
    ensures r.Valid() && Size(r) == |src|
    ensures r.nodes == src
  {
    var c := Clear(l);
    var r := InsertAfterRange(c, BeforeBegin, src).value.0;
    assert c.nodes[..0] + src + c.nodes[0..] == src;
    r
  }

  /** `assign(n, v)`: clear, then insert n copies after the head. */
  function AssignCount<T>(l: FList<T>, n: nat, v: T): (r: FList<T>)
    ensures r.Valid() && Size(r) == n
    ensures forall i :: 0 <= i < n ==> r.nodes[i] == v
  {
    Assign(l, seq(n, _ => v))
  }

  /** `swap(other)`. */
  function Swap<T>(a: FList<T>, b: FList<T>): (r: (FList<T>, FList<T>))
    ensures r.0 == b && r.1 == a
  {
    (b, a)
  }

  /** The copy constructor: the other list's nodes inserted after the head
      of a fresh list. */
  function CopyOf<T>(other: FList<T>): (r: FList<T>)
    requires other.Valid()
    ensures r.Valid() && r.nodes == other.nodes && r == other
  {
    var e := Empty<T>();
    assert e.nodes[..0] + other.nodes + e.nodes[0..] == other.nodes;
    InsertAfterRange(e, BeforeBegin, other.nodes).value.0
  }

  /** The move constructor: a fresh list swapped with other, which is left
      empty. The pair is (the new list, other afterwards). */
  function MoveConstruct<T>(other: FList<T>): (r: (FList<T>, FList<T>))
    ensures r.0 == other && r.1.Valid() && IsEmpty(r.1)
  {
    Swap(Empty(), other)
  }

  /** Copy assignment: copy other, then swap with the copy, whose old nodes
      go with it. */
  function CopyAssign<T>(l: FList<T>, other: FList<T>): (r: FList<T>)
    requires other.Valid()
    ensures r.Valid() && r.nodes == other.nodes
  {
    var copy := CopyOf(other);
    Swap(l, copy).0
  }

  /** Move assignment: when `same` (the two are one list) nothing happens;
      otherwise this list is cleared and swapped with other, which is left
      empty. The pair is (this list, other afterwards). */
  function MoveAssign<T>(l: FList<T>, other: FList<T>, same: bool): (r: (FList<T>, FList<T>))
    requires same ==> l == other
    ensures same ==> r == (l, other)
    ensures !same ==> r.0 == other && r.1.Valid() && IsEmpty(r.1)
  {
    if same then (l, other) else Swap(Clear(l), other)
  }

  /** `resize(k)` on its shrink path, with the range erase as intended: the
      first k nodes are kept. The grow path is not modelled. */
  function Resize<T>(l: FList<T>, k: nat): (r: FList<T>)
    requires l.Valid() && k <= Size(l)
    ensures r.Valid() && Size(r) == k
    ensures r.nodes == l.nodes[..k]
    ensures k == Size(l) ==> r == l
  {
    if k < l.size then EraseAfterRange(l, Advance(l, k), End).0 else l
  }

  /** `resize(k)` on its shrink path as written, through the defective
      range erase. */
  function ResizeAsWritten<T>(l: FList<T>, k: nat): (r: Step<T>)
    requires l.Valid() && k <= Size(l)
    ensures r.list.Valid()
    ensures |r.list.nodes| >= k && r.list.nodes[..k] == l.nodes[..k]
    ensures k == Size(l) ==> r.list == l
  {
    if k < l.size then EraseAfterRangeAsWritten(l, Advance(l, k), End) else Step(l, Ok(End))
  }

  /** Shrinking [1, 2, 3] to one node throws after erasing 2; shrinking
      [1, 2, 3, 4] keeps 1 and 3. */
  lemma ResizeKeepsWrongNodes()
    ensures ResizeAsWritten(FList([1, 2, 3], 3), 1) == Step(FList([1, 3], 2), Err(NoElementAfter))
    ensures ResizeAsWritten(FList([1, 2, 3, 4], 4), 1).list == FList([1, 3], 2)
    ensures Resize(FList([1, 2, 3, 4], 4), 1) == FList([1], 1)
  {
  }

  /** Inserting after p and then erasing after p restores the list, and the
      erase returns the node that followed p originally. */
  lemma InsertThenErase<T>(l: FList<T>, p: Pos, v: T)
    requires l.Valid() && ValidPos(l, p) && p != End
    ensures var (l1, _) := InsertAfter(l, p, v).value;
      EraseAfter(l1, p) == Ok((l, Next(l, p)))
  {
    var (l1, _) := InsertAfter(l, p, v).value;
    var i := After(p);
    assert l1.nodes[..i] + l1.nodes[i + 1..] == l.nodes;
  }

  /** `push_front` then `pop_front` is the identity; `front` sees the pushed
      value. */
  lemma PushPopFront<T>(l: FList<T>, v: T)
    requires l.Valid()
    ensures Front(PushFront(l, v)) == Ok(v)
    ensures PopFront(PushFront(l, v)) == Ok(l)
  {
  }
}

=== FILE: heap.dfy ===
/** `push_heap` of `wood_STL`: a range is a sequence, an iterator an index,
    and `comp` the comparator. With `comp` a "less" the heap is a max-heap
    whose root is at index 0 and whose node i has parent (i - 1) / 2. */
module Heap {
  import opened Orders

  /** The parent index as the source computes it with C++ division, which
      truncates toward zero: for index 0 the expression (0 - 1) / 2 is 0. */
  function Parent(i: nat): (p: nat)
    ensures i == 0 ==> p == 0
    ensures i > 0 ==> p < i && (p * 2 + 1 == i || p * 2 + 2 == i)
  {
    if i == 0 then 0 else (i - 1) / 2
  }

  /** No node is `comp`-less than one of its children. */
  ghost predicate IsHeap<T>(comp: (T, T) -> bool, s: seq<T>) {
    forall i :: 0 < i < |s| ==> !comp(s[Parent(i)], s[i])
  }

  /** In a heap no element is `comp`-greater than the root: the root is a
      greatest element. */
  lemma {:induction false} RootIsGreatest<T(!new)>(comp: (T, T) -> bool, s: seq<T>, i: nat)
    requires StrictWeakOrder(comp) && IsHeap(comp, s) && i < |s|
    ensures !comp(s[0], s[i])
    decreases i
  {
    if i > 0 {
      RootIsGreatest(comp, s, Parent(i));
      assert !comp(s[Parent(i)], s[i]);
    }
  }

  /** The state of the sift-up loop. The hole h is where the pushed element
      `elem` would go; b[h] is a stale copy. Every edge not ending at the
      hole is in heap order, the hole's parent dominates the hole's children,
      and `elem` is not less than any child of the hole. */
  ghost predicate SiftInvariant<T>(comp: (T, T) -> bool, b: seq<T>, h: nat, elem: T) {
    && h < |b|
    && (forall i :: 0 < i < |b| && i != h ==> !comp(b[Parent(i)], b[i]))
    && (forall i :: 0 < i < |b| && i != h && Parent(i) == h && h > 0 ==> !comp(b[Parent(h)], b[i]))
    && (forall i :: 0 < i < |b| && i != h && Parent(i) == h ==> !comp(elem, b[i]))
  }

  /** Moving the parent of the hole down into the hole keeps the loop state,
      with the hole now at the parent. */
  lemma SiftStep<T(!new)>(comp: (T, T) -> bool, b: seq<T>, h: nat, elem: T)
    requires StrictWeakOrder(comp)
    requires SiftInvariant(comp, b, h, elem)
    requires h > 0 && comp(b[Parent(h)], elem)
    ensures SiftInvariant(comp, b[h := b[Parent(h)]], Parent(h), elem)
    ensures b[h := b[Parent(h)]][Parent(h) := elem] == Swap(b[h := elem], h, Parent(h))
  {
    var p := Parent(h);
    var b' := b[h := b[p]];
    forall i | 0 < i < |b'| && i != p
      ensures !comp(b'[Parent(i)], b'[i])
    {
      if i == h {
      } else if Parent(i) == h {
        assert !comp(b[Parent(h)], b[i]);
      } else {
        assert b'[Parent(i)] == b[Parent(i)];
      }
    }
    forall i | 0 < i < |b'| && i != p && Parent(i) == p && p > 0
      ensures !comp(b'[Parent(p)], b'[i])
    {
      assert !comp(b[Parent(p)], b[p]);
      if i != h {
        assert !comp(b[p], b[i]);
      }
    }
    forall i | 0 < i < |b'| && i != p && Parent(i) == p
      ensures !comp(elem, b'[i])
    {
      if i != h {
        assert !comp(b[p], b[i]);
      }
    }
  }

  /** Before the loop the hole is the last position, a leaf. */
  lemma SiftStart<T>(comp: (T, T) -> bool, s: seq<T>)
    requires |s| >= 2 && IsHeap(comp, s[..|s| - 1])
    ensures SiftInvariant(comp, s, |s| - 1, s[|s| - 1])
  {
    var n := |s|;
    forall i | 0 < i < n && i != n - 1
      ensures !comp(s[Parent(i)], s[i])
    {
      assert s[..n - 1][i] == s[i] && s[..n - 1][Parent(i)] == s[Parent(i)];
    }
  }

  /** Dropping `elem` into the hole where the loop stops gives a heap. */
  lemma SiftDone<T(!new)>(comp: (T, T) -> bool, b: seq<T>, h: nat, elem: T)
    requires StrictWeakOrder(comp)
    requires SiftInvariant(comp, b, h, elem)
    requires h > 0 ==> !comp(b[Parent(h)], elem)
    ensures IsHeap(comp, b[h := elem])
  {
  }

  /** k is i or one of its ancestors: the path sift-up may travel from i. */
  predicate OnPath(i: nat, k: nat)
    decreases i
  {
    k == i || (i > 0 && OnPath(Parent(i), k))
  }

  lemma {:induction false} OnPathBelow(i: nat, k: nat)
    requires OnPath(i, k)
    ensures k <= i
    decreases i
  {
    if k != i {
      OnPathBelow(Parent(i), k);
    }
  }

  lemma {:induction false} OnPathTransitive(i: nat, j: nat, k: nat)
    requires OnPath(i, j) && OnPath(j, k)
    ensures OnPath(i, k)
    decreases i
  {
    if j != i {
      OnPathTransitive(Parent(i), j, k);
    }
  }

  /** Where sift-up of `elem` from position h comes to rest: the first
      ancestor that is the root or whose parent is not `comp`-less than
      `elem`. Every position it passes has a parent `comp`-less than
      `elem`. */
  function StopAt<T>(comp: (T, T) -> bool, s: seq<T>, h: nat, elem: T): (t: nat)
    requires h < |s|
    ensures t <= h && OnPath(h, t) && (t == 0 || !comp(s[Parent(t)], elem))
    ensures forall k: nat :: k <= h && OnPath(h, k) && !OnPath(t, k) ==> k > 0 && comp(s[Parent(k)], elem)
    decreases h
  {
    if h == 0 || !comp(s[Parent(h)], elem) then h
    else
      var t := StopAt(comp, s, Parent(h), elem);
      assert forall k: nat :: k <= h && OnPath(h, k) && !OnPath(t, k) ==> k > 0 && comp(s[Parent(k)], elem) by {
        forall k: nat | k <= h && OnPath(h, k) && !OnPath(t, k)
          ensures k > 0 && comp(s[Parent(k)], elem)
        {
          if k != h {
            OnPathBelow(Parent(h), k);
          }
        }
      }
      t
  }

  /** Apart from the hole h, every position on the path from n1 strictly
      below h holds its parent's old value and every other position its old
      value. */
  ghost predicate ShiftedAlong<T>(s: seq<T>, r: seq<T>, n1: nat, h: nat) {
    && |r| == |s|
    && forall k :: 0 <= k < |s| && k != h ==>
         r[k] == (if OnPath(n1, k) && !OnPath(h, k) then s[Parent(k)] else s[k])
  }

  /** The positional part of the sift loop's state: the hole is on the path
      from n1, everything the loop moved is one level down that path, and
      sift-up from the hole stops where sift-up from n1 does. */
  ghost predicate SiftPath<T>(comp: (T, T) -> bool, s: seq<T>, r: seq<T>, n1: nat, h: nat, elem: T)
    requires n1 < |s|
  {
    && h < |s| && OnPath(n1, h) && ShiftedAlong(s, r, n1, h)
    && StopAt(comp, s, h, elem) == StopAt(comp, s, n1, elem)
  }

  /** Moving the hole's parent down into the hole moves the hole one level up
      the path. */
  lemma ShiftAlongStep<T>(s: seq<T>, r: seq<T>, n1: nat, h: nat)
    requires ShiftedAlong(s, r, n1, h) && OnPath(n1, h) && 0 < h < |s|
    ensures r[Parent(h)] == s[Parent(h)]
    ensures OnPath(n1, Parent(h))
    ensures ShiftedAlong(s, r[h := r[Parent(h)]], n1, Parent(h))
  {
    var p := Parent(h);
    assert OnPath(h, p);
    OnPathTransitive(n1, h, p);
    if OnPath(p, h) {
      OnPathBelow(p, h);
    }
    var r' := r[h := r[p]];
    forall k | 0 <= k < |s| && k != p
      ensures r'[k] == (if OnPath(n1, k) && !OnPath(p, k) then s[Parent(k)] else s[k])
    {
      if k != h {
        assert OnPath(h, k) <==> OnPath(p, k);
      }
    }
  }

  /** One round of the loop keeps the positional state; the parent it reads
      still holds its old value. */
  lemma SiftPathStep<T>(comp: (T, T) -> bool, s: seq<T>, r: seq<T>, n1: nat, h: nat, elem: T)
    requires n1 < |s| && SiftPath(comp, s, r, n1, h, elem) && h > 0
    ensures r[Parent(h)] == s[Parent(h)]
    ensures comp(r[Parent(h)], elem) ==> SiftPath(comp, s, r[h := r[Parent(h)]], n1, Parent(h), elem)
  {
    ShiftAlongStep(s, r, n1, h);
  }

  /** Where the loop stops is `StopAt`. */
  lemma SiftPathDone<T>(comp: (T, T) -> bool, s: seq<T>, r: seq<T>, n1: nat, h: nat, elem: T)
    requires n1 < |s| && SiftPath(comp, s, r, n1, h, elem)
    requires h > 0 ==> !comp(r[Parent(h)], elem)
    ensures h == StopAt(comp, s, n1, elem)
    ensures r[h := elem][h] == elem && ShiftedAlong(s, r[h := elem], n1, h)
  {
    if h > 0 {
      ShiftAlongStep(s, r, n1, h);
    }
  }

  /** The sift loop of `push_heap`. The hole h starts at the last position
      and `elem` is the value being pushed; each round moves the hole's
      parent down while it is `comp`-less than `elem`. Returns the final
      sequence with `elem` in the hole. */
  method SiftUp<T(!new)>(s: seq<T>, comp: (T, T) -> bool) returns (r: seq<T>)
    requires StrictWeakOrder(comp)
    requires |s| >= 2 && IsHeap(comp, s[..|s| - 1])
    ensures |r| == |s| && multiset(r) == multiset(s)
    ensures IsHeap(comp, r)
    ensures var t := StopAt(comp, s, |s| - 1, s[|s| - 1]);
      r[t] == s[|s| - 1] && ShiftedAlong(s, r, |s| - 1, t)
  {
    var elem := s[|s| - 1];
    var h: nat := |s| - 1;
    var p := Parent(h);
    r := s;
    assert r[h := elem] == s;
    SiftStart(comp, s);
    while h > 0 && comp(r[p], elem)
      invariant SiftInvariant(comp, r, h, elem)
      invariant |r| == |s| && multiset(r[h := elem]) == multiset(s)
      invariant p == Parent(h)
      invariant SiftPath(comp, s, r, |s| - 1, h, elem)
      decreases h
    {
      SiftPathStep(comp, s, r, |s| - 1, h, elem);
      SiftStep(comp, r, h, elem);
      r := r[h := r[p]];
      h := p;
      p := Parent(h);
    }
    SiftDone(comp, r, h, elem);
    SiftPathDone(comp, s, r, |s| - 1, h, elem);
    r := r[h := elem];
  }

  /** `push_heap(beg, end, comp)`: s[..|s|-1] is a heap and s[|s|-1] the
      pushed element. Its ancestors that are `comp`-less than it move down
      one level each and it comes to rest at `StopAt`; no position off that
      path changes. */
  method PushHeap<T(!new)>(s: seq<T>, comp: (T, T) -> bool) returns (r: seq<T>)
    requires StrictWeakOrder(comp)
    requires |s| > 0 ==> IsHeap(comp, s[..|s| - 1])
    ensures |r| == |s| && multiset(r) == multiset(s)
    ensures IsHeap(comp, r)
    ensures |s| < 2 ==> r == s
    ensures forall k :: 0 <= k < |s| && !OnPath(|s| - 1, k) ==> r[k] == s[k]
    ensures |s| >= 2 ==> var t := StopAt(comp, s, |s| - 1, s[|s| - 1]);
      && r[t] == s[|s| - 1]
      && (forall k :: 0 <= k < |s| && k != t && OnPath(|s| - 1, k) && !OnPath(t, k) ==> r[k] == s[Parent(k)])
      && (forall k :: 0 <= k < |s| && k != t && OnPath(t, k) ==> r[k] == s[k])
    ensures |s| >= 2 && !comp(s[Parent(|s| - 1)], s[|s| - 1]) ==> r == s
  {
    if |s| < 2 {
      return s;
    }
    r := SiftUp(s, comp);
    var t := StopAt(comp, s, |s| - 1, s[|s| - 1]);
    if !comp(s[Parent(|s| - 1)], s[|s| - 1]) {
      assert t == |s| - 1;
      assert r == s;
    }
  }
}

=== FILE: orders.dfy ===
/** Orderings used by the comparator-taking algorithms. A comparator `lt`
    plays the role of the library's `Comp` (or of `operator<` on the value
    type). */
module Orders {

  /** The standard library's requirement on a comparator: irreflexive,
      transitive, and with transitive incomparability (stated here as
      negative transitivity). */
  ghost predicate StrictWeakOrder<T(!new)>(lt: (T, T) -> bool) {
    && (forall x :: !lt(x, x))
    && (forall x, y, z :: lt(x, y) && lt(y, z) ==> lt(x, z))
    && (forall x, y, z :: lt(x, z) ==> lt(x, y) || lt(y, z))
  }

  /** An equivalence relation: reflexive, symmetric and transitive. */
  ghost predicate Equivalence<T(!new)>(eq: (T, T) -> bool) {
    && (forall x :: eq(x, x))
    && (forall x, y :: eq(x, y) ==> eq(y, x))
    && (forall x, y, z :: eq(x, y) && eq(y, z) ==> eq(x, z))
  }

  /** A strict weak order whose incomparable elements are equal. */
  ghost predicate StrictTotalOrder<T(!new)>(lt: (T, T) -> bool) {
    && StrictWeakOrder(lt)
    && (forall x, y :: !lt(x, y) && !lt(y, x) ==> x == y)
  }

  /** No later element is `lt`-less than an earlier one. */
  ghost predicate Sorted<T>(lt: (T, T) -> bool, s: seq<T>) {
    forall i, j :: 0 <= i < j < |s| ==> !lt(s[j], s[i])
  }

  /** The elements of `s` at positions [lo, hi) are pairwise in order. */
  ghost predicate SortedBetween<T>(lt: (T, T) -> bool, s: seq<T>, lo: int, hi: int)
    requires 0 <= lo <= hi <= |s|
  {
    forall i, j :: lo <= i < j < hi ==> !lt(s[j], s[i])
  }

  /** Exchanging two positions of a sequence. */
  function Swap<T>(s: seq<T>, i: nat, j: nat): (r: seq<T>)
    requires i < |s| && j < |s|
    ensures |r| == |s|
    ensures r[i] == s[j] && r[j] == s[i]
    ensures forall k :: 0 <= k < |s| && k != i && k != j ==> r[k] == s[k]
    ensures multiset(r) == multiset(s)
  {
    s[i := s[j]][j := s[i]]
  }
}

=== FILE: queue.dfy ===
/** The `queue` adapter of `wood_STL`. The underlying container is a
    sequence whose front is index 0; `push` appends at the back and `pop`
    removes from the front. The operations on an empty queue that the
    adapter refuses raise `queue_exception`, modelled as an `Err`. */
module Queue {
  import opened Results
  import opened Orders

  datatype Queue<T> = Queue(items: seq<T>)

  /** `queue_exception` with the message the adapter gives it. */
  datatype QueueError = QueueException(msg: string)

  const FrontOfEmpty: string := "queue::front(): the queue is empty!"
  const BackOfEmpty: string := "queue::back(): the queue is empty!"
  const PopOfEmpty: string := "queue::pop(): the queue is empty!"

  /** The adapter built from a container. */
  function FromContainer<T>(container: seq<T>): (q: Queue<T>)
    ensures Size(q) == |container|
    ensures Drain(q) == container
  {
    DrainIsItems(Queue(container));
    Queue(container)
  }

  /** `size()`: the container's size, which is how many pops `Drain` takes. */
  function Size<T>(q: Queue<T>): (n: nat)
    ensures n == 0 <==> q.items == []
  {
    |q.items|
  }

  /** The size counts the elements a sequence of pops yields. */
  lemma SizeIsDrainLength<T>(q: Queue<T>)
    ensures Size(q) == |Drain(q)|
  {
    DrainIsItems(q);
  }

  function IsEmpty<T>(q: Queue<T>): (b: bool)
    ensures b <==> Size(q) == 0
  {
    q.items == []
  }

  /** `front()`: the oldest element. */
  function Front<T>(q: Queue<T>): (r: Result<T, QueueError>)
    ensures r.Err? <==> IsEmpty(q)
    ensures r.Err? ==> r.error == QueueException(FrontOfEmpty)
    ensures r.Ok? ==> r.value == q.items[0]
  {
    if IsEmpty(q) then Err(QueueException(FrontOfEmpty)) else Ok(q.items[0])
  }

  /** `back()`: the newest element. */
  function Back<T>(q: Queue<T>): (r: Result<T, QueueError>)
    ensures r.Err? <==> IsEmpty(q)
    ensures r.Err? ==> r.error == QueueException(BackOfEmpty)
    ensures r.Ok? ==> r.value == q.items[|q.items| - 1]
  {
    if IsEmpty(q) then Err(QueueException(BackOfEmpty)) else Ok(q.items[|q.items| - 1])
  }

  /** `emplace(args...)`: the container's `emplace_back`. */
  function Emplace<T>(q: Queue<T>, value: T): (r: Queue<T>)
    ensures Size(r) == Size(q) + 1
    ensures Back(r) == Ok(value)
    ensures !IsEmpty(q) ==> Front(r) == Front(q)
    ensures r.items[..Size(q)] == q.items
  {
    Queue(q.items + [value])
  }

  /** `push(value)`: both overloads forward to `emplace`. */
  function Push<T>(q: Queue<T>, value: T): (r: Queue<T>)
    ensures Size(r) == Size(q) + 1
    ensures Back(r) == Ok(value)
    ensures !IsEmpty(q) ==> Front(r) == Front(q)
    ensures r.items[..Size(q)] == q.items
  {
    var copy := value;
    Emplace(q, copy)
  }

  /** `pop()`: the container's `pop_front`. */
  function Pop<T>(q: Queue<T>): (r: Result<Queue<T>, QueueError>)
    ensures r.Err? <==> IsEmpty(q)
    ensures r.Err? ==> r.error == QueueException(PopOfEmpty)
    ensures r.Ok? ==> Size(r.value) == Size(q) - 1 && q.items == [q.items[0]] + r.value.items
  {
    if IsEmpty(q) then Err(QueueException(PopOfEmpty)) else Ok(Queue(q.items[1..]))
  }

  /** `swap(other)` and the free `swap(left, right)`. */
  function Swap<T>(left: Queue<T>, right: Queue<T>): (r: (Queue<T>, Queue<T>))
    ensures r.0.items == right.items && r.1.items == left.items
  {
    (right, left)
  }

  // ------------------------------------------------------------ comparisons

  /** The container's `operator<`: lexicographic comparison with `lt` on the
      elements, a proper prefix being less. */
  function LexLess<T>(lt: (T, T) -> bool, a: seq<T>, b: seq<T>): bool {
    if b == [] then false
    else if a == [] then true
    else if lt(a[0], b[0]) then true
    else if lt(b[0], a[0]) then false
    else LexLess(lt, a[1..], b[1..])
  }

  function Eq<T(==)>(q: Queue<T>, other: Queue<T>): (b: bool)
    ensures b <==> q == other
  {
    q.items == other.items
  }

  function Ne<T(==)>(q: Queue<T>, other: Queue<T>): (b: bool)
    ensures b <==> q != other
  {
    !Eq(q, other)
  }

  /** The first k elements of a and b are pairwise equivalent under lt. */
  ghost predicate EquivalentPrefix<T>(lt: (T, T) -> bool, a: seq<T>, b: seq<T>, k: nat) {
    k <= |a| && k <= |b| && forall i :: 0 <= i < k ==> !lt(a[i], b[i]) && !lt(b[i], a[i])
  }

  /** k witnesses that a precedes b: after k equivalent elements either a
      ends while b goes on, or a's next element is lt-less than b's. */
  ghost predicate LexWitness<T>(lt: (T, T) -> bool, a: seq<T>, b: seq<T>, k: nat) {
    && EquivalentPrefix(lt, a, b, k)
    && ((k == |a| && k < |b|) || (k < |a| && k < |b| && lt(a[k], b[k])))
  }

  /** The container's `<` holds exactly when a witness exists. */
  lemma {:induction false} LexLessWitness<T>(lt: (T, T) -> bool, a: seq<T>, b: seq<T>)
    ensures LexLess(lt, a, b) <==> exists k: nat :: LexWitness(lt, a, b, k)
    decreases |a|
  {
    if b == [] || a == [] {
      if a == [] && b != [] {
        assert LexWitness(lt, a, b, 0);
      }
    } else if lt(a[0], b[0]) {
      assert LexWitness(lt, a, b, 0);
    } else if lt(b[0], a[0]) {
      forall k: nat | LexWitness(lt, a, b, k) ensures false {
        if k > 0 {
          assert false;
        }
      }
    } else {
      LexLessWitness(lt, a[1..], b[1..]);
      if LexLess(lt, a[1..], b[1..]) {
        var k: nat :| LexWitness(lt, a[1..], b[1..], k);
        assert LexWitness(lt, a, b, k + 1) by {
          if k < |a[1..]| && k < |b[1..]| {
            assert a[1..][k] == a[k + 1] && b[1..][k] == b[k + 1];
          }
          forall i | 0 <= i < k + 1 ensures !lt(a[i], b[i]) && !lt(b[i], a[i]) {
            if i > 0 {
              assert a[1..][i - 1] == a[i] && b[1..][i - 1] == b[i];
            }
          }
        }
      } else {
        forall k: nat | LexWitness(lt, a, b, k) ensures false {
          assert k > 0;
          assert LexWitness(lt, a[1..], b[1..], k - 1) by {
            forall i | 0 <= i < k - 1 ensures !lt(a[1..][i], b[1..][i]) && !lt(b[1..][i], a[1..][i]) {
              assert a[1..][i] == a[i + 1] && b[1..][i] == b[i + 1];
            }
          }
        }
      }
    }
  }

  /** `operator<`: lexicographic comparison of the containers. */
  function Lt<T>(lt: (T, T) -> bool, q: Queue<T>, other: Queue<T>): (b: bool)
    ensures b <==> exists k: nat :: LexWitness(lt, q.items, other.items, k)
  {
    LexLessWitness(lt, q.items, other.items);
    LexLess(lt, q.items, other.items)
  }

  /** `operator>=`: not less. */
  function Ge<T>(lt: (T, T) -> bool, q: Queue<T>, other: Queue<T>): (b: bool)
    ensures b <==> !exists k: nat :: LexWitness(lt, q.items, other.items, k)
  {
    !Lt(lt, q, other)
  }

  /** `operator>`: the other queue is less. */
  function Gt<T>(lt: (T, T) -> bool, q: Queue<T>, other: Queue<T>): (b: bool)
    ensures b <==> exists k: nat :: LexWitness(lt, other.items, q.items, k)
  {
    Lt(lt, other, q)
  }

  /** `operator<=`: the other queue is not less. */
  function Le<T>(lt: (T, T) -> bool, q: Queue<T>, other: Queue<T>): (b: bool)
    ensures b <==> !exists k: nat :: LexWitness(lt, other.items, q.items, k)
  {
    !Gt(lt, q, other)
  }

  // ---------------------------------------------------------------- lemmas

  /** The elements a sequence of pops yields, oldest first. */
  function Drain<T>(q: Queue<T>): seq<T>
    decreases Size(q)
  {
    match Front(q)
    case Err(_) => []
    case Ok(x) => [x] + Drain(Pop(q).value)
  }

  lemma {:induction false} DrainIsItems<T>(q: Queue<T>)
    ensures Drain(q) == q.items
    decreases Size(q)
  {
    if !IsEmpty(q) {
      DrainIsItems(Pop(q).value);
    }
  }

  /** Pushing and popping commute on a non-empty queue. */
  lemma PushPopCommute<T>(q: Queue<T>, v: T)
    requires !IsEmpty(q)
    ensures Pop(Push(q, v)) == Ok(Push(Pop(q).value, v))
  {
    assert (q.items + [v])[1..] == q.items[1..] + [v];
  }

  /** FIFO: elements pushed onto an empty queue come out in the order they
      went in. */
  lemma Fifo<T>(xs: seq<T>)
    ensures Drain(PushAll(Queue([]), xs)) == xs
  {
    PushAllAppends(Queue([]), xs);
    DrainIsItems(PushAll(Queue([]), xs));
  }

  function PushAll<T>(q: Queue<T>, xs: seq<T>): Queue<T>
    decreases |xs|
  {
    if xs == [] then q else PushAll(Push(q, xs[0]), xs[1..])
  }

  lemma {:induction false} PushAllAppends<T>(q: Queue<T>, xs: seq<T>)
    ensures PushAll(q, xs).items == q.items + xs
    decreases |xs|
  {
    if xs != [] {
      PushAllAppends(Push(q, xs[0]), xs[1..]);
      assert q.items + [xs[0]] + xs[1..] == q.items + xs;
    }
  }

  /** Swapping twice restores both queues. */
  lemma SwapInvolution<T>(a: Queue<T>, b: Queue<T>)
    ensures var r := Swap(a, b); Swap(r.0, r.1) == (a, b)
  {
  }

  /** Under a strict weak order on the elements the queue `<` is a strict
      order: irreflexive and transitive. */
  lemma {:induction false} LexLessIrreflexive<T(!new)>(lt: (T, T) -> bool, a: seq<T>)
    requires StrictWeakOrder(lt)
    ensures !LexLess(lt, a, a)
    decreases |a|
  {
    if a != [] {
      LexLessIrreflexive(lt, a[1..]);
    }
  }

  lemma {:induction false} LexLessTransitive<T(!new)>(lt: (T, T) -> bool, a: seq<T>, b: seq<T>, c: seq<T>)
    requires StrictWeakOrder(lt)
    requires LexLess(lt, a, b) && LexLess(lt, b, c)
    ensures LexLess(lt, a, c)
    decreases |a|
  {
    if a != [] && b != [] && c != [] && !lt(a[0], b[0]) && !lt(b[0], a[0]) && !lt(b[0], c[0]) && !lt(c[0], b[0]) {
      LexLessTransitive(lt, a[1..], b[1..], c[1..]);
    }
  }

  /** Under a strict total order two sequences are equal or one is
      lexicographically less than the other. */
  lemma {:induction false} LexLessTotal<T(!new)>(lt: (T, T) -> bool, a: seq<T>, b: seq<T>)
    requires StrictTotalOrder(lt)
    ensures LexLess(lt, a, b) || a == b || LexLess(lt, b, a)
    decreases |a|
  {
    if a != [] && b != [] && !lt(a[0], b[0]) && !lt(b[0], a[0]) {
      LexLessTotal(lt, a[1..], b[1..]);
      assert a == [a[0]] + a[1..];
      assert b == [b[0]] + b[1..];
    }
  }

  /** Under a strict total order on the elements, exactly one of `<`,
      `==` and `>` holds between two queues, and the derived operators agree
      with it. */
  lemma Trichotomy<T(!new)>(lt: (T, T) -> bool, q: Queue<T>, other: Queue<T>)
    requires StrictTotalOrder(lt)
    ensures Lt(lt, q, other) || Eq(q, other) || Gt(lt, q, other)
    ensures !(Lt(lt, q, other) && Gt(lt, q, other))
    ensures Eq(q, other) ==> !Lt(lt, q, other)
    ensures Le(lt, q, other) <==> Lt(lt, q, other) || Eq(q, other)
    ensures Ge(lt, q, other) <==> Gt(lt, q, other) || Eq(q, other)
  {
    LexLessIrreflexive(lt, q.items);
    LexLessTotal(lt, q.items, other.items);
    if LexLess(lt, q.items, other.items) && LexLess(lt, other.items, q.items) {
      LexLessTransitive(lt, q.items, other.items, q.items);
    }
  }
}

=== FILE: results.dfy ===
/** Failure-carrying results shared by the containers: an operation that the
    library signals with an exception returns `Err`, one that completes
    returns `Ok`. */
module Results {

  datatype Result<+T, +E> = Ok(value: T) | Err(error: E) {
    predicate IsFailure() {
      Err?
    }
  }

  datatype Option<+T> = None | Some(value: T)
}

=== FILE: reverse_iterator.dfy ===
/** `reverse_iterator` of `wood_STL` over a random-access range. The range is
    a sequence s and the wrapped iterator is an index `base` into it; the
    reverse iterator designates the element just before `base`, so
    `rbegin` has base |s| and `rend` has base 0. Every operator is
    arithmetic on `base` with the direction flipped. The overloads for two
    different wrapped iterator types compute the same thing on the bases
    and are modelled by the same functions. */
module ReverseIterator {

  datatype RevIter = RevIter(base: int)

  /** The reference the reverse iterator is compared against: the
      sequence read back to front. */
  function Reversed<T>(s: seq<T>): (r: seq<T>)
    ensures |r| == |s|
    ensures forall i :: 0 <= i < |s| ==> r[i] == s[|s| - 1 - i]
  {
    if s == [] then [] else Reversed(s[1..]) + [s[0]]
  }

  /** `make_reverse_iterator(iter)`. */
  function MakeReverseIterator(iter: int): (r: RevIter)
    ensures r.base == iter
  {
    RevIter(iter)
  }

  /** `base()`: the wrapped iterator, from which `make_reverse_iterator`
      rebuilds the same reverse iterator. */
  function Base(r: RevIter): (b: int)
    ensures MakeReverseIterator(b) == r
  {
    r.base
  }

  /** `operator*`: decrement a copy of the base and dereference it. The
      element must exist. */
  function Deref<T>(s: seq<T>, r: RevIter): (v: T)
    requires 0 < r.base <= |s|
    ensures v == Reversed(s)[|s| - r.base]
  {
    var tmp := r.base - 1;
    s[tmp]
  }

  /** Prefix `operator++` moves towards the front of the range. */
  function PreInc(r: RevIter): (r': RevIter)
    ensures r'.base == r.base - 1
  {
    RevIter(r.base - 1)
  }

  /** Postfix `operator++`: the advanced iterator and the old value. */
  function PostInc(r: RevIter): (res: (RevIter, RevIter))
    ensures res.0 == PreInc(r) && res.1 == r
  {
    (RevIter(r.base - 1), r)
  }

  /** Prefix `operator--` moves towards the back of the range. */
  function PreDec(r: RevIter): (r': RevIter)
    ensures r'.base == r.base + 1
  {
    RevIter(r.base + 1)
  }

  /** Postfix `operator--`: the moved iterator and the old value. */
  function PostDec(r: RevIter): (res: (RevIter, RevIter))
    ensures res.0 == PreDec(r) && res.1 == r
  {
    (RevIter(r.base + 1), r)
  }

  /** `rit + diff`. */
  function Plus(r: RevIter, diff: int): (r': RevIter)
    ensures r'.base == r.base - diff
  {
    RevIter(r.base - diff)
  }

  /** `diff + rit`, the free operator. */
  function PlusLeft(diff: int, r: RevIter): (r': RevIter)
    ensures r' == Plus(r, diff)
  {
    RevIter(r.base - diff)
  }

  /** `rit - diff`. */
  function Minus(r: RevIter, diff: int): (r': RevIter)
    ensures r' == Plus(r, -diff)
  {
    RevIter(r.base + diff)
  }

  /** `rit += diff`: the updated iterator, which is also what it returns. */
  function PlusAssign(r: RevIter, diff: int): (r': RevIter)
    ensures r' == Plus(r, diff)
  {
    RevIter(r.base - diff)
  }

  /** `rit -= diff`. */
  function MinusAssign(r: RevIter, diff: int): (r': RevIter)
    ensures r' == Minus(r, diff)
  {
    RevIter(r.base + diff)
  }

  /** `rit[diff]`: the element `diff` places further on. */
  function Index<T>(s: seq<T>, r: RevIter, diff: int): (v: T)
    requires 0 < r.base - diff <= |s|
    ensures v == s[r.base - 1 - diff]
    ensures v == Reversed(s)[|s| - r.base + diff]
  {
    Deref(s, Plus(r, diff))
  }

  /** `operator==` and `operator!=` compare the bases. */
  function Eq(left: RevIter, right: RevIter): (b: bool)
    ensures b <==> left == right
  {
    left.base == right.base
  }

  function Ne(left: RevIter, right: RevIter): (b: bool)
    ensures b <==> left != right
  {
    !Eq(left, right)
  }

  /** `operator<`: the greater base comes first in reverse order. */
  function Lt(left: RevIter, right: RevIter): (b: bool)
    ensures b <==> Difference(right, left) > 0
  {
    right.base < left.base
  }

  function Gt(left: RevIter, right: RevIter): (b: bool)
    ensures b <==> Difference(right, left) < 0
  {
    Lt(right, left)
  }

  function Le(left: RevIter, right: RevIter): (b: bool)
    ensures b <==> Lt(left, right) || Eq(left, right)
  {
    !Lt(right, left)
  }

  function Ge(left: RevIter, right: RevIter): (b: bool)
    ensures b <==> Gt(left, right) || Eq(left, right)
  {
    !Lt(left, right)
  }

  /** `left - right`: how many increments take right to left. */
  function Difference(left: RevIter, right: RevIter): (d: int)
    ensures Plus(right, d) == left
  {
    right.base - left.base
  }

  /** `make_reverse_iterator(it).base() == it`. */
  lemma MakeThenBase(iter: int)
    ensures Base(MakeReverseIterator(iter)) == iter
  {
  }

  /** `++` and `--` undo each other. */
  lemma IncDecInverse(r: RevIter)
    ensures PreDec(PreInc(r)) == r && PreInc(PreDec(r)) == r
  {
  }

  /** `n` applications of prefix `++`. */
  function Advance(r: RevIter, n: nat): RevIter {
    if n == 0 then r else PreInc(Advance(r, n - 1))
  }

  /** `rit + n` is n increments. */
  lemma {:induction false} PlusIsRepeatedInc(r: RevIter, n: nat)
    ensures Plus(r, n) == Advance(r, n)
  {
    if n > 0 {
      PlusIsRepeatedInc(r, n - 1);
    }
  }

  /** `+` and `-` by the same distance cancel, and the difference recovers
      the distance. */
  lemma PlusMinusInverse(r: RevIter, d: int)
    ensures Minus(Plus(r, d), d) == r
    ensures Difference(Plus(r, d), r) == d
  {
  }

  /** `<` is a strict total order on reverse iterators, the reverse of the
      order of their bases. */
  lemma LtIsStrictTotal(a: RevIter, b: RevIter, c: RevIter)
    ensures !Lt(a, a)
    ensures Lt(a, b) && Lt(b, c) ==> Lt(a, c)
    ensures Lt(a, b) || Eq(a, b) || Lt(b, a)
    ensures Lt(a, b) <==> a.base > b.base
  {
  }

  /** The elements met walking from `from` with prefix `++` until `to`. */
  function Walk<T>(s: seq<T>, from: RevIter, to: RevIter): (r: seq<T>)
    requires 0 <= to.base <= from.base <= |s|
    ensures |r| == from.base - to.base
    decreases from.base - to.base
  {
    if from == to then [] else [Deref(s, from)] + Walk(s, PreInc(from), to)
  }

  /** Walking from `rbegin` (base |s|) to `rend` (base 0) visits the range
      back to front. */
  lemma {:induction false} WalkFrom<T>(s: seq<T>, from: RevIter)
    requires 0 <= from.base <= |s|
    ensures Walk(s, from, RevIter(0)) == Reversed(s)[|s| - from.base..]
    decreases from.base
  {
    if from.base > 0 {
      WalkFrom(s, PreInc(from));
    }
  }

  lemma WalkIsReversed<T>(s: seq<T>)
    ensures Walk(s, MakeReverseIterator(|s|), MakeReverseIterator(0)) == Reversed(s)
  {
    WalkFrom(s, RevIter(|s|));
  }
}

=== FILE: sort.dfy ===
/** The elementary sorts of `wood_STL`. A range is a sequence and the
    comparator `lt` stands for the `Comp` argument, or for `operator<` of the
    element type in the array versions and the default overloads. Each sort
    returns the rearranged sequence. */
module Sort {
  import opened Orders

  /** Every element at a position below `hi` is in order with every element
      at or above it. */
  ghost predicate Bounded<T>(lt: (T, T) -> bool, s: seq<T>, hi: int)
    requires 0 <= hi <= |s|
  {
    forall k, l :: 0 <= k < hi <= l < |s| ==> !lt(s[l], s[k])
  }

  /** s[..hi] is in order once position `hole` is disregarded. */
  ghost predicate SortedExcept<T>(lt: (T, T) -> bool, s: seq<T>, hi: int, hole: int)
    requires 0 <= hi <= |s|
  {
    forall k, l :: 0 <= k < l < hi && k != hole && l != hole ==> !lt(s[l], s[k])
  }

  lemma Asymmetric<T(!new)>(lt: (T, T) -> bool, x: T, y: T)
    requires StrictWeakOrder(lt) && lt(x, y)
    ensures !lt(y, x)
  {
  }

  // ---------------------------------------------------------- selection sort

  /** The inner loop of the iterator `selection_sort`: the first position in
      s[i..] holding a least element. */
  method SelectMin<T(!new)>(s: seq<T>, lt: (T, T) -> bool, i: nat) returns (m: nat)
    requires StrictWeakOrder(lt) && i < |s|
    ensures i <= m < |s|
    ensures forall k :: i <= k < |s| ==> !lt(s[k], s[m])
  {
    m := i;
    var cur := i + 1;
    while cur < |s|
      invariant i <= m < cur <= |s|
      invariant forall k :: i <= k < cur ==> !lt(s[k], s[m])
    {
      if lt(s[cur], s[m]) {
        m := cur;
      }
      cur := cur + 1;
    }
  }

  /** `selection_sort(first, last, comp)`: position by position, the least
      remaining element is swapped into place. */
  method SelectionSort<T(!new)>(s: seq<T>, lt: (T, T) -> bool) returns (r: seq<T>)
    requires StrictWeakOrder(lt)
    ensures |r| == |s| && multiset(r) == multiset(s)
    ensures Sorted(lt, r)
    ensures |s| < 2 ==> r == s
  {
    r := s;
    var i := 0;
    while i < |r|
      invariant 0 <= i <= |r| == |s|
      invariant multiset(r) == multiset(s)
      invariant SortedBetween(lt, r, 0, i)
      invariant Bounded(lt, r, i)
      invariant |s| < 2 ==> r == s
    {
      var m := SelectMin(r, lt, i);
      if m != i {
        r := Swap(r, m, i);
      }
      i := i + 1;
    }
  }

  // ------------------------------------------------------------- bubble sort

  /** One pass of bubble sort over s[..hi]: each out-of-order neighbouring
      pair is exchanged, which carries a greatest element of s[..hi] to
      position hi - 1 and leaves the rest of the sequence alone. */
  method BubblePass<T(!new)>(s: seq<T>, lt: (T, T) -> bool, hi: nat) returns (r: seq<T>)
    requires StrictWeakOrder(lt) && 0 < hi <= |s|
    requires Bounded(lt, s, hi)
    ensures |r| == |s| && multiset(r) == multiset(s)
    ensures r[hi..] == s[hi..]
    ensures forall k :: 0 <= k < hi ==> !lt(r[hi - 1], r[k])
    ensures Bounded(lt, r, hi)
    ensures hi == 1 ==> r == s
  {
    r := s;
    var j := 1;
    while j < hi
      invariant 1 <= j <= hi
      invariant |r| == |s| && multiset(r) == multiset(s)
      invariant r[hi..] == s[hi..]
      invariant forall k :: 0 <= k < j ==> !lt(r[j - 1], r[k])
      invariant Bounded(lt, r, hi)
      invariant hi == 1 ==> r == s
    {
      if lt(r[j], r[j - 1]) {
        Asymmetric(lt, r[j], r[j - 1]);
        r := Swap(r, j, j - 1);
      }
      j := j + 1;
    }
  }

  /** After a pass over s[..hi] the sorted, bounding suffix starts at
      hi - 1. */
  lemma PassExtendsSuffix<T>(lt: (T, T) -> bool, s: seq<T>, hi: nat)
    requires 0 < hi <= |s|
    requires SortedBetween(lt, s, hi, |s|) && Bounded(lt, s, hi)
    requires forall k :: 0 <= k < hi ==> !lt(s[hi - 1], s[k])
    ensures SortedBetween(lt, s, hi - 1, |s|) && Bounded(lt, s, hi - 1)
  {
  }

  /** The array `bubble_sort(arr, size)`: pass i runs over the first
      size - i elements. */
  method BubbleSortArray<T(!new)>(s: seq<T>, lt: (T, T) -> bool) returns (r: seq<T>)
    requires StrictWeakOrder(lt)
    ensures |r| == |s| && multiset(r) == multiset(s)
    ensures Sorted(lt, r)
    ensures |s| < 2 ==> r == s
  {
    r := s;
    if |s| < 2 {
      return;
    }
    var i := 0;
    while i < |s|
      invariant 0 <= i <= |s| == |r|
      invariant multiset(r) == multiset(s)
      invariant SortedBetween(lt, r, |s| - i, |s|) && Bounded(lt, r, |s| - i)
    {
      r := BubblePass(r, lt, |s| - i);
      PassExtendsSuffix(lt, r, |s| - i);
      i := i + 1;
    }
  }

  /** The iterator `bubble_sort(first, last, comp)`: after each pass `last`
      moves back to the last position the pass reached, until it meets
      `first`. */
  method BubbleSort<T(!new)>(s: seq<T>, lt: (T, T) -> bool) returns (r: seq<T>)
    requires StrictWeakOrder(lt)
    ensures |r| == |s| && multiset(r) == multiset(s)
    ensures Sorted(lt, r)
    ensures |s| < 2 ==> r == s
  {
    r := s;
    if |s| == 0 {
      return;
    }
    var last := |s|;
    while last != 0
      invariant 0 <= last <= |s| == |r|
      invariant multiset(r) == multiset(s)
      invariant SortedBetween(lt, r, last, |s|) && Bounded(lt, r, last)
      invariant |s| < 2 ==> r == s
    {
      r := BubblePass(r, lt, last);
      PassExtendsSuffix(lt, r, last);
      last := last - 1;
    }
  }

  // ---------------------------------------------------------- insertion sort

  /** Moving the hole one place down while the held value is shifted over
      is a transposition of the filled-in sequence. */
  lemma ShiftIsSwap<T>(b: seq<T>, j: nat, value: T)
    requires 0 < j < |b|
    ensures b[j := b[j - 1]][j - 1 := value] == Swap(b[j := value], j - 1, j)
  {
  }

  /** One shift of the inner loop of `insertion_sort` keeps its invariant. */
  lemma ShiftStep<T(!new)>(lt: (T, T) -> bool, s: seq<T>, b: seq<T>, i: nat, j: nat, value: T)
    requires StrictWeakOrder(lt)
    requires 0 < j <= i < |b| == |s|
    requires multiset(b[j := value]) == multiset(s)
    requires SortedExcept(lt, b, i + 1, j)
    requires forall l :: j < l <= i ==> lt(value, b[l])
    requires lt(value, b[j - 1])
    ensures var b' := b[j := b[j - 1]];
      && multiset(b'[j - 1 := value]) == multiset(s)
      && SortedExcept(lt, b', i + 1, j - 1)
      && (forall l :: j - 1 < l <= i ==> lt(value, b'[l]))
  {
    ShiftIsSwap(b, j, value);
  }

  /** Filling the hole where the inner loop stops leaves s[..i+1] sorted. */
  lemma FillStep<T(!new)>(lt: (T, T) -> bool, b: seq<T>, i: nat, j: nat, value: T)
    requires StrictWeakOrder(lt)
    requires j <= i < |b|
    requires SortedExcept(lt, b, i + 1, j)
    requires forall l :: j < l <= i ==> lt(value, b[l])
    requires j > 0 ==> !lt(value, b[j - 1])
    ensures SortedBetween(lt, b[j := value], 0, i + 1)
  {
    var c := b[j := value];
    forall k, l | 0 <= k < l < i + 1
      ensures !lt(c[l], c[k])
    {
      if k == j {
        Asymmetric(lt, value, b[l]);
      }
    }
  }

  /** The array `insertion_sort(arr, size)`: each element in turn is held
      while the greater elements before it shift up one place, then dropped
      into the hole. */
  method InsertionSort<T(!new)>(s: seq<T>, lt: (T, T) -> bool) returns (r: seq<T>)
    requires StrictWeakOrder(lt)
    ensures |r| == |s| && multiset(r) == multiset(s)
    ensures Sorted(lt, r)
    ensures |s| < 2 ==> r == s
  {
    r := s;
    if |s| < 2 {
      return;
    }
    var i := 1;
    while i < |s|
      invariant 1 <= i <= |s| == |r|
      invariant multiset(r) == multiset(s)
      invariant SortedBetween(lt, r, 0, i)
    {
      var value := r[i];
      var j := i;
      assert r[j := value] == r;
      while j > 0 && lt(value, r[j - 1])
        invariant 0 <= j <= i && |r| == |s|
        invariant multiset(r[j := value]) == multiset(s)
        invariant SortedExcept(lt, r, i + 1, j)
        invariant forall l :: j < l <= i ==> lt(value, r[l])
      {
        ShiftStep(lt, s, r, i, j, value);
        r := r[j := r[j - 1]];
        j := j - 1;
      }
      FillStep(lt, r, i, j, value);
      r := r[j := value];
      i := i + 1;
    }
  }
}

=== FILE: vector.dfy ===
/** The dynamic array `wood_STL::vector`. The three pointers `elem_`,
    `free_` and `last_` are abstracted to the live elements (the range
    [elem_, free_)) and the capacity (last_ - elem_). A null vector, where
    all three pointers are null, is the vector with no elements and
    capacity 0. */
module Vector {
  import opened Results

  /** Growth constants of the library; the routine that applies them is not
      part of this model, so a push that finds the buffer full takes the
      new capacity as a parameter. */
  const FirstExpandCapacity: nat := 10
  const ExpandRate: nat := 2

  datatype Vector<T> = Vector(elems: seq<T>, cap: nat) {
    /** elem_ <= free_ <= last_ */
    ghost predicate Valid() {
      |elems| <= cap
    }
  }

  datatype VectorError = OutOfRange

  /** The default constructor: all three pointers null. */
  function Empty<T>(): (r: Vector<T>)
    ensures r.Valid() && Size(r) == 0 && Capacity(r) == 0
  {
    Vector([], 0)
  }

  /** free_ - elem_: the number of live elements, never more than the
      capacity of a valid vector. */
  function Size<T>(v: Vector<T>): (n: nat)
    ensures n == 0 <==> v.elems == []
    ensures v.Valid() ==> n <= v.cap
  {
    |v.elems|
  }

  /** last_ - elem_: the slots allocated, at least the live elements of a
      valid vector. */
  function Capacity<T>(v: Vector<T>): (c: nat)
    ensures v.Valid() ==> c >= |v.elems|
  {
    v.cap
  }

  /** elem_ == free_ */
  function IsEmpty<T>(v: Vector<T>): (b: bool)
    ensures b <==> Size(v) == 0
  {
    v.elems == []
  }

  /** Fresh storage for exactly n copies of value. The library only calls it
      on a vector without elements; the old storage plays no part. */
  function CreateFill<T>(v: Vector<T>, n: nat, value: T): (r: Vector<T>)
    requires v.Valid() && IsEmpty(v)
    ensures r.Valid()
    ensures Size(r) == n && Capacity(r) == n
    ensures forall i :: 0 <= i < n ==> r.elems[i] == value
  {
    Vector(seq(n, _ => value), n)
  }

  /** Fresh storage holding a copy of the range; an empty range returns
      before allocating and leaves the vector as it was. */
  function CreateRange<T>(v: Vector<T>, src: seq<T>): (r: Vector<T>)
    requires v.Valid() && IsEmpty(v)
    ensures r.Valid()
    ensures src == [] ==> r == v
    ensures src != [] ==> Capacity(r) == Size(r) == |src|
    ensures Size(r) == |src| && forall i :: 0 <= i < |src| ==> r.elems[i] == src[i]
  {
    if src == [] then v else Vector(src, |src|)
  }

  /** Destroys the elements and releases the storage; on a null vector it
      does nothing. */
  function ClearElements<T>(v: Vector<T>): (r: Vector<T>)
    ensures r.Valid() && Size(r) == 0 && Capacity(r) == 0
    ensures v == Empty() ==> r == v
  {
    Empty()
  }

  /** Destroys the elements but keeps the storage. */
  function Clear<T>(v: Vector<T>): (r: Vector<T>)
    requires v.Valid()
    ensures r.Valid() && IsEmpty(r)
    ensures Capacity(r) == Capacity(v)
  {
    Vector([], v.cap)
  }

  /** `vector(n, value)` and `vector(n)` (the latter with the default value). */
  function FromCount<T>(n: nat, value: T): (r: Vector<T>)
    ensures r.Valid() && Size(r) == Capacity(r) == n
    ensures forall i :: 0 <= i < n ==> At(r, i) == Ok(value)
  {
    CreateFill(Empty(), n, value)
  }

  /** `vector(first, last)` and the initializer-list constructor. */
  function FromRange<T>(src: seq<T>): (r: Vector<T>)
    ensures r.Valid() && Size(r) == Capacity(r) == |src|
    ensures forall i :: 0 <= i < |src| ==> At(r, i) == Ok(src[i])
  {
    CreateRange(Empty(), src)
  }

  /** The copy constructor and copy assignment (copy then swap): a new
      buffer sized exactly to the source's elements. */
  function Copy<T>(other: Vector<T>): (r: Vector<T>)
    ensures r.Valid() && Capacity(r) == Size(other)
    ensures r.elems == other.elems
  {
    FromRange(other.elems)
  }

  /** `assign(first, last)`: release, then copy the range. */
  function Assign<T>(v: Vector<T>, src: seq<T>): (r: Vector<T>)
    ensures r.Valid() && Size(r) == Capacity(r) == |src|
    ensures forall i :: 0 <= i < |src| ==> At(r, i) == Ok(src[i])
  {
    CreateRange(ClearElements(v), src)
  }

  /** `assign(n, value)`: release, then fill. */
  function AssignFill<T>(v: Vector<T>, n: nat, value: T): (r: Vector<T>)
    ensures r.Valid() && Size(r) == Capacity(r) == n
    ensures forall i :: 0 <= i < n ==> At(r, i) == Ok(value)
  {
    CreateFill(ClearElements(v), n, value)
  }

  /** The checked subscript. */
  function At<T>(v: Vector<T>, n: nat): (r: Result<T, VectorError>)
    ensures r.Ok? <==> n < Size(v)
    ensures r.Ok? ==> r.value == v.elems[n]
    ensures r.Err? ==> r.error == OutOfRange
  {
    if n < |v.elems| then Ok(v.elems[n]) else Err(OutOfRange)
  }

  /** `push_back` / `emplace_back`. When the buffer is full the storage is
      regrown first; `grown` is the capacity the regrowth leaves. */
  function PushBack<T>(v: Vector<T>, value: T, grown: nat): (r: Vector<T>)
    requires v.Valid()
    requires Size(v) == Capacity(v) ==> grown > Size(v)
    ensures r.Valid()
    ensures Size(r) == Size(v) + 1 && Capacity(r) >= Size(r)
    ensures Size(v) < Capacity(v) ==> Capacity(r) == Capacity(v)
    ensures At(r, Size(v)) == Ok(value)
    ensures forall i :: 0 <= i < Size(v) ==> At(r, i) == At(v, i)
  {
    var cap := if |v.elems| < v.cap then v.cap else grown;
    Vector(v.elems + [value], cap)
  }

  /** `resize(n, value)`: erase the tail, or insert copies of value at the
      end. `grown` is the capacity left by an insertion that must regrow. */
  function Resize<T>(v: Vector<T>, n: nat, value: T, grown: nat): (r: Vector<T>)
    requires v.Valid()
    requires n > Capacity(v) ==> grown >= n
    ensures r.Valid() && Size(r) == n
    ensures forall i :: 0 <= i < n && i < Size(v) ==> At(r, i) == At(v, i)
    ensures forall i :: Size(v) <= i < n ==> At(r, i) == Ok(value)
    ensures n <= Capacity(v) ==> Capacity(r) == Capacity(v)
  {
    if n < |v.elems| then Vector(v.elems[..n], v.cap)
    else if n > |v.elems| then
      Vector(v.elems + seq(n - |v.elems|, _ => value), if n <= v.cap then v.cap else grown)
    else v
  }

  /** `shrink_to_fit`: copy, then swap with the copy. */
  function ShrinkToFit<T>(v: Vector<T>): (r: Vector<T>)
    ensures r.Valid() && Capacity(r) == Size(r) == Size(v)
    ensures forall i :: 0 <= i < Size(v) ==> At(r, i) == At(v, i)
  {
    Copy(v)
  }

  /** `clear` twice is `clear` once; on an empty vector it changes nothing. */
  lemma ClearIdempotent<T>(v: Vector<T>)
    requires v.Valid()
    ensures Clear(Clear(v)) == Clear(v)
    ensures IsEmpty(v) ==> Clear(v) == v
  {
  }

  /** The mutating members a program may call on a vector, with the value
      arguments they take. */
  datatype VectorOp<T> =
    | PushOp(value: T)
    | ResizeOp(n: nat, fill: T)
    | AssignOp(src: seq<T>)
    | AssignFillOp(count: nat, fill: T)
    | ClearOp
    | ShrinkOp

  /** One call; `grow` gives the capacity a regrowing call leaves, which
      always exceeds what it was asked to hold. */
  function Apply<T>(v: Vector<T>, op: VectorOp<T>, grow: nat -> nat): (r: Vector<T>)
    requires v.Valid()
    requires forall n :: grow(n) > n
  {
    match op
    case PushOp(x) => PushBack(v, x, grow(Size(v)))
    case ResizeOp(n, x) => Resize(v, n, x, grow(n))
    case AssignOp(src) => Assign(v, src)
    case AssignFillOp(n, x) => AssignFill(v, n, x)
    case ClearOp => Clear(v)
    case ShrinkOp => ShrinkToFit(v)
  }

  /** A sequence of calls, first to last. */
  function Run<T>(v: Vector<T>, ops: seq<VectorOp<T>>, grow: nat -> nat): Vector<T>
    requires v.Valid()
    requires forall n :: grow(n) > n
    decreases |ops|
  {
    if ops == [] then v else Run(Apply(v, ops[0], grow), ops[1..], grow)
  }

  /** elem_ <= free_ <= last_ survives any sequence of pushes, resizes,
      assignments, clears and shrinks: no call ever leaves more elements
      than slots. */
  lemma {:induction false} RunKeepsValid<T>(v: Vector<T>, ops: seq<VectorOp<T>>, grow: nat -> nat)
    requires v.Valid()
    requires forall n :: grow(n) > n
    ensures Run(v, ops, grow).Valid()
    decreases |ops|
  {
    if ops != [] {
      RunKeepsValid(Apply(v, ops[0], grow), ops[1..], grow);
    }
  }

  /** Reading back what `assign(first, last)` stored reproduces the range,
      and the first index past it is out of range. */
  lemma AssignRoundTrip<T>(v: Vector<T>, src: seq<T>)
    ensures Assign(v, src).elems == src
    ensures At(Assign(v, src), |src|) == Err(OutOfRange)
  {
  }

  /** A vector built by pushing xs one at a time, with `grown` giving the
      capacity each full push regrows to. */
  function PushAll<T>(v: Vector<T>, xs: seq<T>, grown: nat -> nat): (r: Vector<T>)
    requires v.Valid()
    requires forall n :: grown(n) > n
    ensures r.Valid()
    decreases |xs|
  {
    if xs == [] then v
    else PushAll(PushBack(v, xs[0], grown(Size(v))), xs[1..], grown)
  }

  /** After n pushes onto an empty vector the contents are the pushed values
      in order. */
  lemma {:induction false} PushAllAppends<T>(v: Vector<T>, xs: seq<T>, grown: nat -> nat)
    requires v.Valid()
    requires forall n :: grown(n) > n
    ensures PushAll(v, xs, grown).elems == v.elems + xs
    decreases |xs|
  {
    if xs != [] {
      var w := PushBack(v, xs[0], grown(Size(v)));
      PushAllAppends(w, xs[1..], grown);
      assert w.elems + xs[1..] == v.elems + xs;
    }
  }

  /** The scenario of the vector test: five pushes, copy assignment, then on
      the copy: clear, assign from a three-element array, clear, assign from
      an initializer list, clear, assign a count. */
  lemma TestScenario(grown: nat -> nat)
    requires forall n :: grown(n) > n
    ensures var v := PushAll(Empty(), [5, 4, 3, 2, 1], grown);
            var w := Copy(v);
            var a := Assign(Clear(w), [1, 2, 3]);
            var b := Assign(Clear(a), [1, 2, 3, 4]);
            var c := AssignFill(Clear(b), 10, 0);
            && w.elems == [5, 4, 3, 2, 1]
            && Size(Clear(w)) == 0
            && a.elems == [1, 2, 3]
            && b.elems == [1, 2, 3, 4]
            && c.elems == seq(10, _ => 0)
  {
    PushAllAppends(Empty(), [5, 4, 3, 2, 1], grown);
  }
}
